=== FILE: README.md ===
# Apollo Studio subgraph-check client, modelled in Dafny

This project models the Go SDK's client for Apollo Studio's asynchronous
subgraph **check workflow** and the graph-reference handling around it.

A caller proposes a new schema for one subgraph. The client submits a check
and receives a workflow id. It then polls the workflow until the service
reports a terminal status. Finally it turns the service's heterogeneous task
records into one `ValidationResult`, which carries a validity verdict, an
error list and a change list.

The repository holds two revisions of the package side by side, and each is
modelled on its own terms:

| module | file | what it models |
|---|---|---|
| `Text` | (helpers) | Go's `strings.Split`/`strings.Join` on one separator character, and `%d` rendering with its inverse |
| `Results` | (helpers) | `Option` and `Result` shapes for Go's nil pointers and `(value, error)` returns |
| `PkgErrors` | `pkg/apollostudio/errors.go` | `ApolloError`, `OperationError`, its `Error()` text and `Print` listing, and Go `error` values (plain, `%w`-wrapped, `*OperationError`) |
| `PkgValidate` | `pkg/apollostudio/validate.go` | statuses, the two task kinds, `ValidationResult` and its `IsValid`/`Errors`/`Changes` |
| `PkgWorkflow` | `pkg/apollostudio/validate.go` | `submitSubgraphCheck`, the `checkWorkflow` polling loop, `ValidateSubGraph` |
| `PkgClient` | `pkg/apollostudio/client.go` | `NewClient`'s graph-ref checks and the `@` split into graph id and variant |
| `StudioClient` | `apollostudio/client.go` | `ValidateGraphRef`, `getGraphId`, `getVariant`, options folded by `NewClient` |
| `StudioGet` | `apollostudio/get.go` | `ContainsGraph`, `Errors`, and the error handling of `GetLatestSchemaBuild` |
| `StudioCheck` | `apollostudio/apollostudio.go` | the earlier `ValidateSubGraph` loop and `SubmitSubGraph` |

Network round trips are inputs to the model:
- the submit mutation is either a transport failure or an optional workflow id;
- the polling loop reads a finite sequence of steps. Each step says whether
  the context was already cancelled before that query, and what the query
  returned: a failure, or a status with raw task records.

When the steps run out before the loop returns, the run ends as
`StillPolling`. The source would keep querying in that case. Every run also
counts its queries and its one-second sleeps. The `pkg` loop additionally
records the warning lines it prints.

Behaviour the model keeps exactly as the code has it:
- Error texts match the code character for character. The submit wrapper has
  `": "` before the cause (`validate.go:191`), but the poll wrapper has no
  colon (`validate.go:236`).
- Composition locations are joined with no separator, so locations (1,2)
  and (3,4) read `"line 1, column 2line 3, column 4"`.
  `CompositionLocationsExample` and `LocationsTextAppend` state this.
- A composition task never reports changes. An operations task reports each
  change twice: once as a change line, and once as an error with the change's
  code.
- `pkg` polling ends on BLOCKED, FAILED or PASSED. It keeps polling on PENDING
  and on any unknown status, and prints a warning for an unknown status. It
  does not sleep after the terminal response.
- The earlier loop in `apollostudio/apollostudio.go` ends only on FAILED (an
  error), PASSED (success) or a query error. It keeps polling on BLOCKED. It
  sleeps after every successful query, the terminal one included.

Where the code is more permissive than a reader might expect, the model
follows the code:
- A graph ref is accepted as soon as it contains one `@`. Empty graph ids,
  empty variants and extra `@` segments are all accepted.
- The proposed schema is never checked for emptiness.
- A rejection (invalid input, permission, plan) is not a separate error. It
  leaves the workflow id nil, so it produces "could not create check workflow
  in apollo studio".
- Statuses stay service strings: `ValidationStatus` is a Go string type. The
  model's `Status` enumeration, with `Unknown(raw)`, converts to and from
  those strings without loss (`Parse`, `Raw`, `ParseRaw`).
- The sleep between polls is not cancellable. Cancellation is seen only
  before the next query.

## Model

| member | source | states |
|---|---|---|
| PkgErrors.OperationErrorText | pkg/apollostudio/errors.go:19-21 | the text is the message, `" ("`, the decimal rendering of the number of service errors (which reads back as that count), then `" apollo errors)"`, and nothing else |
| PkgErrors.OperationErrorTextDeterminedByCount | pkg/apollostudio/errors.go:19-21 | with equal messages, two error texts are equal exactly when the error counts are; the errors' contents never matter |
| PkgErrors.PrintEntryNumber | pkg/apollostudio/errors.go:26-28 | a listing line starts with `#`, then exactly the decimal digits of the entry's index (the digits stop there), which read back as the index |
| PkgErrors.PrintEntryLayout | pkg/apollostudio/errors.go:26-28 | after the number come `": code: "`, the code, `", message: "`, then the message, and the line's length is 20 plus the parts |
| PkgErrors.PrintEntries | pkg/apollostudio/errors.go:26-28 | one line per error, in list order, the i-th numbered from the starting index plus i |
| PkgErrors.PrintLines | pkg/apollostudio/errors.go:23-29 | `Print` writes the error text, the header `Apollo errors:`, then exactly one line per service error, numbered from 0 in list order |
| PkgErrors.PrintLinesNumbered | pkg/apollostudio/errors.go:26-28 | the i-th listed error line carries, right after `#`, exactly the decimal digits of i, which read back as i |
| PkgValidate.Parse | pkg/apollostudio/validate.go:11-18 | converting a service string to a status loses nothing (its raw string is the input); the status is unknown exactly when the string is none of FAILED/PASSED/PENDING/BLOCKED |
| PkgValidate.ParseRaw | pkg/apollostudio/validate.go:11-18 | every status survives the trip to its service string and back |
| PkgValidate.ChangeLine | pkg/apollostudio/validate.go:108-115 | a change line is `[`, the severity, `]: `, then the description, with length the sum of the parts plus 4 |
| PkgValidate.ChangeLineInjective | pkg/apollostudio/validate.go:108-115 | when severities contain no `]`, a change line determines both the severity and the description |
| PkgValidate.OperationsChanges | pkg/apollostudio/validate.go:108-115 | an operations task has one change line per recorded change, in order |
| PkgValidate.OperationsErrors | pkg/apollostudio/validate.go:95-106 | an operations task has one error per recorded change, in order, each keeping that change's code |
| PkgValidate.OperationsErrorsAreChanges | pkg/apollostudio/validate.go:95-115 | the i-th error of an operations task has the i-th change line as its message and the i-th change's code |
| PkgValidate.SingleChangeTask | pkg/apollostudio/validate.go:95-115 | an operations task with one change reports exactly that change line, and exactly one error with that line and the change's code |
| PkgValidate.LocationsText | pkg/apollostudio/validate.go:124-127 | the locations text is empty exactly when there are no locations |
| PkgValidate.LocationTextReadsBack | pkg/apollostudio/validate.go:126 | a location reads `line `, the line in decimal, `, column `, then the column in decimal, and both numbers read back from the text |
| PkgValidate.LocationsTextAppend | pkg/apollostudio/validate.go:124-127 | locations are concatenated with no separator: the text of joined lists is the texts joined |
| PkgValidate.CompositionMessage | pkg/apollostudio/validate.go:124-131 | a message without locations is kept as is; with locations it is the message, then `" at "`, then the locations text |
| PkgValidate.CompositionErrors | pkg/apollostudio/validate.go:121-140 | a composition task has one error per reported error, in order, code kept and message with its locations |
| PkgValidate.TaskChanges | pkg/apollostudio/validate.go:108-144 | a composition task has no changes; an operations task has one per recorded change |
| PkgValidate.TaskErrors | pkg/apollostudio/validate.go:95-140 | a task has one error per recorded change (operations) or per reported error (composition) |
| PkgValidate.TaskOutputIgnoresStatus | pkg/apollostudio/validate.go:95-148 | a task's changes and errors do not depend on its own status |
| PkgValidate.GetStatus | pkg/apollostudio/validate.go:117-148 | `GetStatus()` of either task kind is the status stored in that task |
| PkgValidate.NewValidationResult | pkg/apollostudio/validate.go:63-69 | a new result has the given status and no tasks |
| PkgValidate.IsValid | pkg/apollostudio/validate.go:71-74 | a result is valid exactly when its service status string is "PASSED" |
| PkgValidate.ResultErrors | pkg/apollostudio/validate.go:76-85 | `Errors()` is empty when no task is FAILED; its length is the number of errors the FAILED tasks carry |
| PkgValidate.NoFailedTaskNoErrors | pkg/apollostudio/validate.go:76-85 | tasks none of which is FAILED contribute no errors, whatever they contain |
| PkgValidate.TasksErrorsAppend | pkg/apollostudio/validate.go:76-85 | the errors of concatenated task lists are the concatenated errors, so task order is kept |
| PkgValidate.TasksErrorsSingle | pkg/apollostudio/validate.go:76-85 | a single task contributes its errors exactly when its own status is FAILED |
| PkgValidate.ResultErrorsMembership | pkg/apollostudio/validate.go:76-85 | an error is reported exactly when some FAILED task reports it |
| PkgValidate.ResultChanges | pkg/apollostudio/validate.go:87-93 | the length of `Changes()` is the sum of the per-task change counts |
| PkgValidate.TasksChangesAppend | pkg/apollostudio/validate.go:87-93 | the changes of concatenated task lists are the concatenated changes |
| PkgValidate.TasksChangesSingle | pkg/apollostudio/validate.go:87-93 | a single task contributes all its changes, whatever its status |
| PkgValidate.ResultChangesMembership | pkg/apollostudio/validate.go:87-93 | a change is reported exactly when some task, of any status, reports it |
| PkgValidate.ResultChangesIgnoreStatuses | pkg/apollostudio/validate.go:87-93 | task lists that differ only in statuses have the same changes |
| PkgValidate.FailedOperationsErrorsAreChanges | pkg/apollostudio/validate.go:76-115 | when every task is a FAILED operations task, the error messages are exactly the change lines |
| PkgValidate.OperationsExample | pkg/apollostudio/validate.go:95-115 | a BREAKING FIELD_REMOVED change yields the change line `[BREAKING]: Field X removed` and the same text as an error with code FIELD_REMOVED |
| PkgValidate.CompositionLocationsExample | pkg/apollostudio/validate.go:121-140 | an error with two locations reads its message, `" at "`, then both location texts with nothing between them |
| PkgValidate.LocationTextExample | pkg/apollostudio/validate.go:126 | location (1,2) reads `line 1, column 2` |
| PkgValidate.AggregationExample | pkg/apollostudio/validate.go:71-93 | under BLOCKED, a FAILED composition task with 2 errors and a PASSED operations task with 3 changes give 2 errors, 3 changes, not valid |
| PkgWorkflow.SubmitSubgraphCheck | pkg/apollostudio/validate.go:189-199 | the id comes back exactly when the mutation succeeded with a non-nil workflow id; a mutation error is wrapped after `failed to query apollo studio: `; a nil id gives "could not create check workflow in apollo studio" |
| PkgWorkflow.TaskOf | pkg/apollostudio/validate.go:251-258 | a record becomes a task exactly when its typename is OperationsCheckTask or CompositionCheckTask, an OperationsCheckTask record becoming the operations task built from its operations fragment and a CompositionCheckTask record the composition task built from its composition fragment |
| PkgWorkflow.TasksOf | pkg/apollostudio/validate.go:250-258 | the result holds one task per recognised record, and each comes from some record |
| PkgWorkflow.TasksOfAppend | pkg/apollostudio/validate.go:251-258 | records are converted in order: converting a concatenation concatenates the conversions |
| PkgWorkflow.TasksOfAllRecognised | pkg/apollostudio/validate.go:251-258 | when every typename is recognised, task i is the conversion of record i |
| PkgWorkflow.TasksOfNoneRecognised | pkg/apollostudio/validate.go:251-258 | records of unknown typenames all vanish |
| PkgWorkflow.UnknownStateWarningNamesStatus | pkg/apollostudio/validate.go:262 | the warning for an unknown status is `WARNING: unknown workflow state ` followed by that status |
| PkgWorkflow.CheckWorkflow | pkg/apollostudio/validate.go:225-266 | a run never issues more queries than steps, sleeps at most once per query, and returns a result only with a terminal status; if still polling, it has queried and slept once per step |
| PkgWorkflow.CheckWorkflowStep | pkg/apollostudio/validate.go:225-265 | a step that does not end the loop costs one query and one sleep, adds its warning if its status is unknown, and the loop continues with the next step |
| PkgWorkflow.CheckWorkflowStopStep | pkg/apollostudio/validate.go:225-259 | a cancelled, failed or terminal first step decides the run alone: its outcome, one query (none if cancelled), no sleep, no warning |
| PkgWorkflow.CheckWorkflowFirstStop | pkg/apollostudio/validate.go:225-266 | at the first cancelled, failed or terminal step k the loop returns that step's outcome (`ctx.Err()`, a wrapped query error, or the status with its tasks), having slept k times, queried k+1 times (k if cancelled), and warned once per unknown status before k |
| PkgWorkflow.CheckWorkflowNeverStops | pkg/apollostudio/validate.go:225-266 | steps that are all PENDING or unknown keep the loop polling, with one query and one warning per unknown status |
| PkgWorkflow.CheckWorkflowIgnoresLaterSteps | pkg/apollostudio/validate.go:244-259 | once the loop returns, no later response is ever queried or looked at |
| PkgWorkflow.CheckWorkflowValidity | pkg/apollostudio/validate.go:239-259 | a returned result is valid exactly when the final status string is "PASSED", and its tasks are the recognised records of that final response |
| PkgWorkflow.ValidateSubGraph | pkg/apollostudio/validate.go:269-277 | a submit error is returned with zero queries, sleeps and warnings; otherwise the run is the polling loop's |
| PkgClient.NewClient | pkg/apollostudio/client.go:25-53 | an empty ref gives "graph ref is required"; a ref without `@` gives "missing variant in graph ref"; otherwise the ref is kept and the graph id and variant are `@`-free, with graph id `@` variant as a prefix of the ref followed by `@` or nothing |
| PkgClient.NewClientAgreesWithGraphRef | pkg/apollostudio/client.go:41-51 | the graph id and variant equal what `getGraphId` and `getVariant` read from the same ref |
| PkgClient.ExtraSegmentsIgnored | pkg/apollostudio/client.go:41-51 | `a@b@c` gives graph id `a` and variant `b` |
| PkgClient.EmptyGraphIdAccepted | pkg/apollostudio/client.go:41-52 | `@v` is accepted with an empty graph id |
| PkgClient.EmptyVariantAccepted | pkg/apollostudio/client.go:41-52 | `g@` is accepted with an empty variant |
| StudioClient.ValidateGraphRef | apollostudio/client.go:58-70 | a ref is accepted exactly when it contains `@`; an empty one is "graph ref is required", a non-empty one without `@` is "missing variant in graph ref" |
| StudioClient.GetGraphId | apollostudio/client.go:72-76 | the graph id is the `@`-free text before the first `@`, or the whole ref when there is none |
| StudioClient.GetVariant | apollostudio/client.go:78-83 | needs an `@`; the variant is the `@`-free text after the first `@`, up to the next `@` or the end |
| StudioClient.GraphRefRoundTrip | apollostudio/client.go:72-83 | with exactly one `@`, graph id, `@` and variant rebuild the ref |
| StudioClient.GraphRefParts | apollostudio/client.go:58-83 | a ref built from `@`-free graph id and variant is accepted and reads back as those two |
| StudioClient.ExtraSegmentsIgnored | apollostudio/client.go:63-83 | `a@b@c` is accepted, with graph id `a` and variant `b` |
| StudioClient.FooAtBarTestCase | apollostudio/client_test.go:8-33 | `foo@bar` is valid, with graph id `foo` and variant `bar` |
| StudioClient.FooBarTestCase | apollostudio/client_test.go:8-21 | `foobar` is rejected for its missing variant |
| StudioClient.DefaultSettings | apollostudio/client.go:86-91 | the starting settings are the default HTTP client, debug off, the public GraphQL URL and the API-key request modifier |
| StudioClient.ApplyOption | apollostudio/client.go:27-54 | an option overwrites the setting it names and leaves the others alone |
| StudioClient.ApplyOptionsAppend | apollostudio/client.go:93-95 | options are applied left to right: two lists apply as the first, then the second |
| StudioClient.ApplyOptions | apollostudio/client.go:93-95 | options are folded left to right; any of URL, debug flag, HTTP client or request modifier that no option names keeps its value |
| StudioClient.LastUrlWins | apollostudio/client.go:42-47 | the last `WithUrl` decides the URL |
| StudioClient.LastDebugWins | apollostudio/client.go:34-39 | the last `WithDebug` decides the debug flag |
| StudioClient.NewClient | apollostudio/client.go:85-110 | a client is built exactly when the ref contains `@`; otherwise the error is `ValidateGraphRef`'s; the ref is stored unchanged; the settings are the options folded left to right over the defaults, so the URL is the default and debug is off unless an option says otherwise |
| StudioGet.ContainsGraph | apollostudio/get.go:40-47 | true exactly when some input subgraph has the name; false for no subgraphs |
| StudioGet.BuildErrors | apollostudio/get.go:49-51 | `Errors()` of a build is the failure messages stored in it |
| StudioGet.GetLatestSchemaBuild | apollostudio/get.go:95-108 | the build is returned exactly when the query succeeded and the build has no error messages; a query error is wrapped; a failing build gives an `OperationError` "latest schema build contains N errors" carrying exactly its messages |
| StudioGet.FailedBuildErrorText | apollostudio/get.go:100-106 | a failing build's error text is "latest schema build contains N errors (N apollo errors)" |
| StudioCheck.SubmittedGraphRef | apollostudio/apollostudio.go:124 | the submitted ref is the schema id, `@`, then the variant |
| StudioCheck.SubmittedGraphRefReadsBack | apollostudio/apollostudio.go:124 | for `@`-free ids and variants the submitted ref is valid and reads back as the id and the variant |
| StudioCheck.PollWorkflow | apollostudio/apollostudio.go:169-189 | sleeps never outnumber queries; success is only `true`, after a sleep for every query; still polling means one query and one sleep per step |
| StudioCheck.PollWorkflowFirstStop | apollostudio/apollostudio.go:169-189 | at the first query error, FAILED or PASSED at position k, the loop returns (success only for PASSED), having queried k+1 times and slept k+1 times (k after a query error) |
| StudioCheck.PollWorkflowNeverStops | apollostudio/apollostudio.go:169-189 | without FAILED, PASSED or a query error the loop never returns |
| StudioCheck.BlockedKeepsPolling | apollostudio/apollostudio.go:180-188 | a BLOCKED response adds one query and one sleep and changes nothing else |
| StudioCheck.ValidateSubGraph | apollostudio/apollostudio.go:131-139 | a mutation error or a nil workflow id returns an error without any query; otherwise the loop runs |
| StudioCheck.SubmitSubGraph | apollostudio/apollostudio.go:223-234 | success (always `true`) exactly when the mutation succeeded and listed no errors; otherwise an error |

## Left out

- GraphQL execution and wire shapes are not modelled: `Mutate`/`Query`, struct tags, request variables and the input types. A response is an input value, and a transport error is an opaque `Error` cause.
- The rejection variants `InvalidInputError`, `PermissionError` and `PlanError` are not modelled separately. Their fields are never read, so a rejection is a nil workflow id.
- Time is not modelled. `time.Sleep` becomes a counted sleep. The unknown-state `Printf` becomes a recorded warning line.
- Unbounded polling is modelled only over a finite sequence of responses. A run that outlasts the sequence ends as `StillPolling`.
- Context cancellation is a per-step flag. `ctx.Err()` is a parameter. The mutation's own reaction to a cancelled context is just a failed mutation.
- The workflow id is not passed on to the poll queries, because the query variables are not modelled.
- HTTP and authentication plumbing is opaque: `headerTransport.RoundTrip`, `ApiKeyRequestModifier` and the construction of the HTTP/GraphQL clients. An HTTP client or request modifier is just a label value.
- Single-round-trip wrappers are not modelled: `pkg/apollostudio/read.go`, `remove.go` and `submit.go`, `apollostudio/submit.go`, and `GetSubGraph`.
- `apollostudio/main.go` is not modelled. It repeats the `apollostudio.go` check loop line for line, and its `SubmitGraph` never returns true: a mutation error gives `(false, error)`, anything else `(false, nil)`.
- The CLI programs `main.go` and `cmd/debug/main.go` are not modelled. They only load the environment, print and exit.
- Go's nil and empty slices are not told apart. Both are the empty sequence.
- Go's 64-bit `int` (location line/column, checked-operation count) is unbounded here. Only its `%d` rendering is used.
- The `ApolloError`/`OperationError` types used by `apollostudio/get.go` are defined in none of the `apollostudio/` files modelled here. The model uses the `pkg/apollostudio/errors.go` definitions of the same shape.
- `apollostudio/client_test.go:18` calls `isValidGraphRef`, which `apollostudio/client.go` does not define. Its two cases are stated against `ValidateGraphRef` returning nil.
- StudioCheck.PollWorkflow: the FAILED error text renders the workflow value with Go's `%v`. The model follows the struct's field order in this revision of `apollostudio/apollostudio.go`. Only `PollWorkflowFirstStop` relies on which response ended the loop, not on that text.

=== FILE: pkg_client.dfy ===
/**
 The client constructor of `pkg/apollostudio`: it checks the graph ref and
 splits it on `@` into the graph id and the variant that later requests use.
 */
module PkgClient {
  import opened Text
  import opened Results
  import opened PkgErrors
  import StudioClient

  const Url := "https://graphql.api.apollographql.com/api/graphql"

  datatype ClientOpts = ClientOpts(apiKey: string, graphRef: string)

  /* The HTTP and GraphQL clients are represented by the key and URL they carry. */
  datatype Client = Client(apiKey: string, url: string, graphRef: string, graphId: string, variant: string)

  /**
   `NewClient`: rejects an empty ref and a ref without `@`; otherwise the
   graph id is the text before the first `@` and the variant the text up to
   the next `@` (or the end). Empty pieces are accepted.
   */
  function NewClient(opts: ClientOpts): (r: Result<Client, Error>)
    ensures r.Ok? <==> '@' in opts.graphRef
    ensures opts.graphRef == "" ==> r == Err(Message("graph ref is required"))
    ensures opts.graphRef != "" && '@' !in opts.graphRef ==> r == Err(Message("missing variant in graph ref"))
    ensures r.Ok? ==> r.value.graphRef == opts.graphRef && r.value.apiKey == opts.apiKey && r.value.url == Url
    ensures r.Ok? ==> '@' !in r.value.graphId && '@' !in r.value.variant
    ensures r.Ok? ==>
              var used := r.value.graphId + "@" + r.value.variant;
              |used| <= |opts.graphRef| && opts.graphRef[..|used|] == used
              && (|used| == |opts.graphRef| || opts.graphRef[|used|] == '@')
  {
    var ref := opts.graphRef;
    CountPositiveIffPresent(ref, '@');
    if ref == "" then Err(Message("graph ref is required"))
    else
      var p := Split(ref, '@');
      if |p| < 2 then Err(Message("missing variant in graph ref"))
      else
        JoinFirstTwo(p, '@');
        Ok(Client(opts.apiKey, Url, ref, p[0], p[1]))
  }

  /* Both packages read the same graph id and variant out of a ref. */
  lemma NewClientAgreesWithGraphRef(opts: ClientOpts)
    requires NewClient(opts).Ok?
    ensures '@' in opts.graphRef
    ensures NewClient(opts).value.graphId == StudioClient.GetGraphId(opts.graphRef)
    ensures NewClient(opts).value.variant == StudioClient.GetVariant(opts.graphRef)
  {
  }

  /* Segments after the second `@` are ignored. */
  lemma ExtraSegmentsIgnored()
    ensures NewClient(ClientOpts("k", "a@b@c")) == Ok(Client("k", Url, "a@b@c", "a", "b"))
  {
    assert "a@b@c" == Join(["a", "b", "c"], '@');
    SplitJoin(["a", "b", "c"], '@');
  }

  /* An empty graph id is accepted. */
  lemma EmptyGraphIdAccepted()
    ensures NewClient(ClientOpts("k", "@v")) == Ok(Client("k", Url, "@v", "", "v"))
  {
    assert "@v" == Join(["", "v"], '@');
    SplitJoin(["", "v"], '@');
  }

  /* An empty variant is accepted. */
  lemma EmptyVariantAccepted()
    ensures NewClient(ClientOpts("k", "g@")) == Ok(Client("k", Url, "g@", "g", ""))
  {
    assert "g@" == Join(["g", ""], '@');
    SplitJoin(["g", ""], '@');
  }
}

=== FILE: pkg_errors.dfy ===
/**
 The error values of the `pkg/apollostudio` package: the `{Message, Code}`
 pair the service reports, the `OperationError` that bundles such pairs, and
 a model of the Go `error` values the package hands back to its callers.
 */
module PkgErrors {
  import opened Text

  /* One problem reported by the service. */
  datatype ApolloError = ApolloError(message: string, code: string)

  /* The service's errors for one operation, with a summary message. */
  datatype OperationError = OperationError(message: string, apolloErrors: seq<ApolloError>)

  /**
   A Go `error` as produced in this package: a plain message (`errors.New`,
   or `fmt.Errorf` without `%w`), a message that wraps a cause (`fmt.Errorf`
   with `%w`), or an `*OperationError`.
   */
  datatype Error =
    | Message(text: string)
    | Wrapped(prefix: string, cause: Error)
    | Operation(op: OperationError)

  /* The `Error()` text of an `*OperationError`. */
  function OperationErrorText(op: OperationError): (r: string)
    ensures |op.message| + 2 <= |r|
    ensures r[..|op.message| + 2] == op.message + " ("
    ensures DecimalValue(DigitPrefix(r[|op.message| + 2..])) == |op.apolloErrors|
    ensures |r| >= 15 && r[|r| - 15..] == " apollo errors)"
    ensures |r| == |op.message| + 2 + |NatToDecimal(|op.apolloErrors|)| + 15
    ensures r[|op.message| + 2..|r| - 15] == NatToDecimal(|op.apolloErrors|)
  {
    var count := NatToDecimal(|op.apolloErrors|);
    var r := op.message + " (" + count + " apollo errors)";
    assert r[|op.message| + 2..] == count + " apollo errors)";
    DigitPrefixOfDecimal(count, " apollo errors)");
    NatToDecimalRoundTrip(|op.apolloErrors|);
    r
  }

  /* The three pieces of an `*OperationError` text, put back together. */
  lemma OperationErrorTextPieces(op: OperationError)
    ensures OperationErrorText(op) == op.message + " (" + NatToDecimal(|op.apolloErrors|) + " apollo errors)"
  {
  }

  /* The `Error()` text of any error value: a wrapper prints its prefix followed by its cause. */
  function ErrorText(e: Error): string
  {
    match e
    case Message(text) => text
    case Wrapped(prefix, cause) => prefix + ErrorText(cause)
    case Operation(op) => OperationErrorText(op)
  }

  /**
   The text of an `*OperationError` depends on its message and on the
   number of service errors, and on nothing else: with the same message,
   two texts agree exactly when the counts do.
   */
  lemma OperationErrorTextDeterminedByCount(a: OperationError, b: OperationError)
    requires a.message == b.message
    ensures OperationErrorText(a) == OperationErrorText(b) <==> |a.apolloErrors| == |b.apolloErrors|
  {
  }

  /* A listing line starts with its `#` and its number, and the digits stop at the code label. */
  lemma EntryNumber(hash: string, number: string, codeLabel: string, code: string, messageLabel: string, message: string)
    requires |hash| == 1 && AllDigits(number)
    requires codeLabel != [] && !IsDigit(codeLabel[0])
    ensures var r := hash + number + codeLabel + code + messageLabel + message;
            r[0] == hash[0] && DigitPrefix(r[1..]) == number && r[1..1 + |number|] == number
  {
    var rest := codeLabel + code + messageLabel + message;
    var r := hash + number + codeLabel + code + messageLabel + message;
    assert r == hash + (number + rest);
    SliceEnd(hash, number + rest);
    DigitPrefixOfDecimal(number, rest);
    assert r[1..1 + |number|] == r[1..][..|number|];
  }

  /* Where each of the six pieces of a listing line sits. */
  lemma EntryLayout(hash: string, number: string, codeLabel: string, code: string, messageLabel: string, message: string)
    ensures var r := hash + number + codeLabel + code + messageLabel + message;
            var labelAt := |hash| + |number|;
            var codeAt := labelAt + |codeLabel|;
            var messageLabelAt := codeAt + |code|;
            && |r| == messageLabelAt + |messageLabel| + |message|
            && r[labelAt..codeAt] == codeLabel
            && r[codeAt..messageLabelAt] == code
            && r[messageLabelAt..messageLabelAt + |messageLabel|] == messageLabel
            && r[|r| - |message|..] == message
  {
    var a := hash + number;
    var b := a + codeLabel;
    var c := b + code;
    var d := c + messageLabel;
    SliceMiddle(a, codeLabel, code + messageLabel + message);
    SliceMiddle(b, code, messageLabel + message);
    SliceMiddle(c, messageLabel, message);
    SliceEnd(d, message);
  }

  /* One line of the listing `Print` writes after its header. */
  function PrintEntry(i: nat, e: ApolloError): string {
    "#" + NatToDecimal(i) + ": code: " + e.code + ", message: " + e.message
  }

  /* A listing line starts with `#` and a number that reads back as the entry's index. */
  lemma PrintEntryNumber(i: nat, e: ApolloError)
    ensures PrintEntry(i, e)[0] == '#'
    ensures DigitPrefix(PrintEntry(i, e)[1..]) == NatToDecimal(i)
    ensures PrintEntry(i, e)[1..1 + |NatToDecimal(i)|] == NatToDecimal(i)
    ensures DecimalValue(DigitPrefix(PrintEntry(i, e)[1..])) == i
  {
    var number := NatToDecimal(i);
    var codeLabel := ": code: ";
    assert !IsDigit(codeLabel[0]);
    assert PrintEntry(i, e) == "#" + number + codeLabel + e.code + ", message: " + e.message;
    EntryNumber("#", number, codeLabel, e.code, ", message: ", e.message);
    NatToDecimalRoundTrip(i);
  }

  /**
   After its number, a listing line holds the label `: code: `, the code,
   the label `, message: `, then the message, and nothing else.
   */
  lemma PrintEntryLayout(i: nat, e: ApolloError)
    ensures var r := PrintEntry(i, e);
            var codeAt := 1 + |NatToDecimal(i)| + 8;
            && |r| == 20 + |NatToDecimal(i)| + |e.code| + |e.message|
            && r[codeAt - 8..codeAt] == ": code: "
            && r[codeAt..codeAt + |e.code|] == e.code
            && r[codeAt + |e.code|..codeAt + |e.code| + 11] == ", message: "
            && r[|r| - |e.message|..] == e.message
  {
    var number := NatToDecimal(i);
    var codeLabel, messageLabel := ": code: ", ", message: ";
    assert |codeLabel| == 8 && |messageLabel| == 11;
    assert PrintEntry(i, e) == "#" + number + codeLabel + e.code + messageLabel + e.message;
    EntryLayout("#", number, codeLabel, e.code, messageLabel, e.message);
  }

  function PrintEntries(errors: seq<ApolloError>, first: nat): (r: seq<string>)
    ensures |r| == |errors|
    ensures forall i :: 0 <= i < |errors| ==> r[i] == PrintEntry(first + i, errors[i])
    decreases |errors|
  {
    if errors == [] then [] else [PrintEntry(first, errors[0])] + PrintEntries(errors[1..], first + 1)
  }

  /**
   The lines `Print` writes: the error text, a header, then one line per
   service error, numbered from 0 in list order.
   */
  function PrintLines(op: OperationError): (r: seq<string>)
    ensures |r| == |op.apolloErrors| + 2
    ensures r[0] == OperationErrorText(op)
    ensures r[1] == "Apollo errors:"
    ensures forall i :: 0 <= i < |op.apolloErrors| ==>
              r[i + 2] == PrintEntry(i, op.apolloErrors[i])
  {
    [OperationErrorText(op), "Apollo errors:"] + PrintEntries(op.apolloErrors, 0)
  }

  /* Every listed entry carries its own position as its number. */
  lemma PrintLinesNumbered(op: OperationError, i: nat)
    requires i < |op.apolloErrors|
    ensures PrintLines(op)[i + 2][0] == '#'
    ensures DigitPrefix(PrintLines(op)[i + 2][1..]) == NatToDecimal(i)
    ensures PrintLines(op)[i + 2][1..1 + |NatToDecimal(i)|] == NatToDecimal(i)
    ensures DecimalValue(DigitPrefix(PrintLines(op)[i + 2][1..])) == i
  {
    PrintEntryNumber(i, op.apolloErrors[i]);
  }
}

=== FILE: pkg_validate.dfy ===
/**
 The outcome of a subgraph check in `pkg/apollostudio`: the workflow status,
 the two kinds of check task the service runs, and the `ValidationResult`
 that combines them into a verdict, an error list and a change list.
 */
module PkgValidate {
  import opened Text
  import opened PkgErrors

  /* ---------- status ---------- */

  /**
   A workflow or task status. The source keeps the service's string; the
   four names it knows get their own constructor and every other string is
   `Unknown`.
   */
  datatype ValidationStatus = Failed | Passed | Pending | Blocked | Unknown(raw: string)

  predicate IsKnownName(s: string) {
    s == "FAILED" || s == "PASSED" || s == "PENDING" || s == "BLOCKED"
  }

  /* Statuses as the source can hold them: an unknown one never spells a known name. */
  type Status = s: ValidationStatus | !(s.Unknown? && IsKnownName(s.raw)) witness Pending

  /* The service string a status stands for. */
  function Raw(s: ValidationStatus): string {
    match s
    case Failed => "FAILED"
    case Passed => "PASSED"
    case Pending => "PENDING"
    case Blocked => "BLOCKED"
    case Unknown(raw) => raw
  }

  /* The conversion `ValidationStatus(workflow.Status)`: it loses nothing. */
  function Parse(s: string): (r: Status)
    ensures Raw(r) == s
    ensures r.Unknown? <==> !IsKnownName(s)
  {
    if s == "FAILED" then Failed
    else if s == "PASSED" then Passed
    else if s == "PENDING" then Pending
    else if s == "BLOCKED" then Blocked
    else Unknown(s)
  }

  lemma ParseRaw(s: Status)
    ensures Parse(Raw(s)) == s
  {
  }

  /* The statuses that end the polling loop. */
  predicate IsTerminal(s: ValidationStatus) {
    s == Blocked || s == Failed || s == Passed
  }

  /* ---------- the two task kinds ---------- */

  datatype OperationsChange = OperationsChange(severity: string, code: string, description: string)

  /* Impact of the proposed schema on recorded client operations. */
  datatype OperationsCheckTask = OperationsCheckTask(
    status: Status,
    changes: seq<OperationsChange>,
    numberOfCheckedOperations: int)

  datatype Location = Location(line: int, column: int)

  datatype CompositionError = CompositionError(message: string, code: string, locations: seq<Location>)

  /* Whether the proposed subgraph still composes into the supergraph. */
  datatype CompositionCheckTask = CompositionCheckTask(
    status: Status,
    graphCompositionId: string,
    errors: seq<CompositionError>)

  /* The `ValidationTask` interface, closed over its two implementations. */
  datatype ValidationTask =
    | Operations(operations: OperationsCheckTask)
    | Composition(composition: CompositionCheckTask)

  /* `GetStatus()` of either task kind: the status it was reported with. */
  function GetStatus(t: ValidationTask): (r: Status)
    ensures t.Operations? ==> r == t.operations.status
    ensures t.Composition? ==> r == t.composition.status
  {
    match t
    case Operations(o) => o.status
    case Composition(c) => c.status
  }

  /* ---------- operations check task ---------- */

  /* The text `"[%s]: %s"` gives one change: severity in brackets, then the description. */
  function ChangeLine(c: OperationsChange): (r: string)
    ensures |r| == |c.severity| + |c.description| + 4
    ensures r[..1] == "[" && r[1..|c.severity| + 1] == c.severity
    ensures r[|c.severity| + 1..|c.severity| + 4] == "]: "
    ensures r[|c.severity| + 4..] == c.description
  {
    "[" + c.severity + "]: " + c.description
  }

  /**
   When severities hold no `]`, a change line determines the severity and
   the description it was made from.
   */
  lemma ChangeLineInjective(a: OperationsChange, b: OperationsChange)
    requires ']' !in a.severity && ']' !in b.severity
    requires ChangeLine(a) == ChangeLine(b)
    ensures a.severity == b.severity && a.description == b.description
  {
    var r := ChangeLine(a);
    assert r[..|a.severity| + 1] == "[" + a.severity;
    assert r[..|b.severity| + 1] == "[" + b.severity;
    IndexOfFirst(r, ']', |a.severity| + 1);
    IndexOfFirst(r, ']', |b.severity| + 1);
  }

  /* `Changes()` of an operations task: one line per recorded change, in order. */
  function OperationsChanges(changes: seq<OperationsChange>): (r: seq<string>)
    ensures |r| == |changes|
    ensures forall i :: 0 <= i < |changes| ==> r[i] == ChangeLine(changes[i])
    decreases |changes|
  {
    if changes == [] then [] else [ChangeLine(changes[0])] + OperationsChanges(changes[1..])
  }

  /* `Errors()` of an operations task: every change, seen as a problem. */
  function OperationsErrors(changes: seq<OperationsChange>): (r: seq<ApolloError>)
    ensures |r| == |changes|
    ensures forall i :: 0 <= i < |changes| ==> r[i].code == changes[i].code
    decreases |changes|
  {
    if changes == [] then []
    else [ApolloError(ChangeLine(changes[0]), changes[0].code)] + OperationsErrors(changes[1..])
  }

  /* Messages of a list of errors. */
  function Messages(errors: seq<ApolloError>): (r: seq<string>)
    ensures |r| == |errors|
    ensures forall i :: 0 <= i < |errors| ==> r[i] == errors[i].message
    decreases |errors|
  {
    if errors == [] then [] else [errors[0].message] + Messages(errors[1..])
  }

  /**
   An operations task's errors are its changes: the i-th error carries the
   i-th change's code and, as its message, the i-th change line.
   */
  lemma {:induction false} OperationsErrorsAreChanges(changes: seq<OperationsChange>)
    ensures Messages(OperationsErrors(changes)) == OperationsChanges(changes)
    ensures forall i :: 0 <= i < |changes| ==>
              OperationsErrors(changes)[i] == ApolloError(OperationsChanges(changes)[i], changes[i].code)
    decreases |changes|
  {
    if changes != [] {
      OperationsErrorsAreChanges(changes[1..]);
    }
  }

  /* ---------- composition check task ---------- */

  /* The text `"line %d, column %d"` gives one location. */
  function LocationText(l: Location): (r: string)
    ensures |r| >= 15 && r[..5] == "line "
  {
    "line " + IntToDecimal(l.line) + ", column " + IntToDecimal(l.column)
  }

  /**
   A location's text holds `line `, the line in decimal, `, column `, then
   the column in decimal, and both numbers read back.
   */
  lemma LocationTextReadsBack(l: Location)
    ensures var r := LocationText(l);
            var lineEnd := 5 + |IntToDecimal(l.line)|;
            && |r| == lineEnd + 9 + |IntToDecimal(l.column)|
            && r[..5] == "line "
            && r[5..lineEnd] == IntToDecimal(l.line)
            && SignedDecimalValue(r[5..lineEnd]) == l.line
            && r[lineEnd..lineEnd + 9] == ", column "
            && r[lineEnd + 9..] == IntToDecimal(l.column)
            && SignedDecimalValue(r[lineEnd + 9..]) == l.column
  {
    var line, column := IntToDecimal(l.line), IntToDecimal(l.column);
    var lineLabel, columnLabel := "line ", ", column ";
    assert |lineLabel| == 5 && |columnLabel| == 9;
    assert LocationText(l) == lineLabel + line + columnLabel + column;
    SliceMiddle(lineLabel, line, columnLabel + column);
    SliceMiddle(lineLabel + line, columnLabel, column);
    SliceEnd(lineLabel + line + columnLabel, column);
    IntToDecimalRoundTrip(l.line);
    IntToDecimalRoundTrip(l.column);
  }

  /* The locations of one error, concatenated with no separator between them. */
  function LocationsText(locations: seq<Location>): (r: string)
    ensures r == "" <==> locations == []
    decreases |locations|
  {
    if locations == [] then "" else LocationText(locations[0]) + LocationsText(locations[1..])
  }

  /* Concatenating location lists concatenates their texts: nothing marks the boundary. */
  lemma {:induction false} LocationsTextAppend(a: seq<Location>, b: seq<Location>)
    ensures LocationsText(a + b) == LocationsText(a) + LocationsText(b)
    decreases |a|
  {
    if a != [] {
      assert (a + b)[1..] == a[1..] + b;
      LocationsTextAppend(a[1..], b);
    } else {
      assert a + b == b;
    }
  }

  /* The message of one composition error: with its locations, if it has any. */
  function CompositionMessage(e: CompositionError): (r: string)
    ensures e.locations == [] ==> r == e.message
    ensures e.locations != [] ==>
              |r| > |e.message| + 4
              && r[..|e.message| + 4] == e.message + " at "
              && r[|e.message| + 4..] == LocationsText(e.locations)
  {
    var locations := LocationsText(e.locations);
    if |locations| > 0 then e.message + " at " + locations else e.message
  }

  /* `Errors()` of a composition task: one error per reported error, code kept. */
  function CompositionErrors(errors: seq<CompositionError>): (r: seq<ApolloError>)
    ensures |r| == |errors|
    ensures forall i :: 0 <= i < |errors| ==>
              r[i].code == errors[i].code && r[i].message == CompositionMessage(errors[i])
    decreases |errors|
  {
    if errors == [] then []
    else [ApolloError(CompositionMessage(errors[0]), errors[0].code)] + CompositionErrors(errors[1..])
  }

  /* ---------- the task interface ---------- */

  /* `Changes()` of a task; a composition task has none. */
  function TaskChanges(t: ValidationTask): (r: seq<string>)
    ensures t.Composition? ==> r == []
    ensures t.Operations? ==> |r| == |t.operations.changes|
  {
    match t
    case Operations(o) => OperationsChanges(o.changes)
    case Composition(_) => []
  }

  /* `Errors()` of a task. */
  function TaskErrors(t: ValidationTask): (r: seq<ApolloError>)
    ensures t.Operations? ==> |r| == |t.operations.changes|
    ensures t.Composition? ==> |r| == |t.composition.errors|
  {
    match t
    case Operations(o) => OperationsErrors(o.changes)
    case Composition(c) => CompositionErrors(c.errors)
  }

  /* Two tasks that differ at most in their status. */
  predicate SameButStatus(a: ValidationTask, b: ValidationTask) {
    match (a, b)
    case (Operations(x), Operations(y)) =>
      x.changes == y.changes && x.numberOfCheckedOperations == y.numberOfCheckedOperations
    case (Composition(x), Composition(y)) =>
      x.errors == y.errors && x.graphCompositionId == y.graphCompositionId
    case _ => false
  }

  /* A task's own status does not influence its changes or errors. */
  lemma TaskOutputIgnoresStatus(a: ValidationTask, b: ValidationTask)
    requires SameButStatus(a, b)
    ensures TaskChanges(a) == TaskChanges(b)
    ensures TaskErrors(a) == TaskErrors(b)
  {
  }

  /* ---------- validation result ---------- */

  datatype ValidationResult = ValidationResult(status: Status, tasks: seq<ValidationTask>)

  function NewValidationResult(s: Status): (r: ValidationResult)
    ensures r.status == s
    ensures |r.tasks| == 0
  {
    ValidationResult(s, [])
  }

  /* The proposed schema is valid exactly when the service said "PASSED". */
  predicate IsValid(vr: ValidationResult)
    ensures IsValid(vr) <==> Raw(vr.status) == "PASSED"
  {
    vr.status == Passed
  }

  /* Errors of the tasks whose own status is FAILED, in task order. */
  function TasksErrors(tasks: seq<ValidationTask>): (r: seq<ApolloError>)
    decreases |tasks|
  {
    if tasks == [] then []
    else (if GetStatus(tasks[0]) == Failed then TaskErrors(tasks[0]) else []) + TasksErrors(tasks[1..])
  }

  /* Changes of every task, in task order. */
  function TasksChanges(tasks: seq<ValidationTask>): (r: seq<string>)
    decreases |tasks|
  {
    if tasks == [] then [] else TaskChanges(tasks[0]) + TasksChanges(tasks[1..])
  }

  /* `ValidationResult.Errors()`. */
  function ResultErrors(vr: ValidationResult): (r: seq<ApolloError>)
    ensures (forall i :: 0 <= i < |vr.tasks| ==> GetStatus(vr.tasks[i]) != Failed) ==> r == []
    ensures |r| == FailedErrorCount(vr.tasks)
  {
    NoFailedTaskNoErrors(vr.tasks);
    TasksErrorsLength(vr.tasks);
    TasksErrors(vr.tasks)
  }

  /* `ValidationResult.Changes()`. */
  function ResultChanges(vr: ValidationResult): (r: seq<string>)
    ensures |r| == ChangeCount(vr.tasks)
  {
    TasksChangesLength(vr.tasks);
    TasksChanges(vr.tasks)
  }

  /* Number of errors the FAILED tasks carry. */
  function FailedErrorCount(tasks: seq<ValidationTask>): nat
    decreases |tasks|
  {
    if tasks == [] then 0
    else (if GetStatus(tasks[0]) == Failed then |TaskErrors(tasks[0])| else 0) + FailedErrorCount(tasks[1..])
  }

  /* Number of changes all tasks carry. */
  function ChangeCount(tasks: seq<ValidationTask>): nat
    decreases |tasks|
  {
    if tasks == [] then 0 else |TaskChanges(tasks[0])| + ChangeCount(tasks[1..])
  }

  lemma {:induction false} NoFailedTaskNoErrors(tasks: seq<ValidationTask>)
    ensures (forall i :: 0 <= i < |tasks| ==> GetStatus(tasks[i]) != Failed) ==> TasksErrors(tasks) == []
    decreases |tasks|
  {
    if tasks != [] {
      NoFailedTaskNoErrors(tasks[1..]);
      if forall i :: 0 <= i < |tasks| ==> GetStatus(tasks[i]) != Failed {
        assert GetStatus(tasks[0]) != Failed;
        assert forall i :: 0 <= i < |tasks[1..]| ==> GetStatus(tasks[1..][i]) != Failed by {
          forall i | 0 <= i < |tasks[1..]|
            ensures GetStatus(tasks[1..][i]) != Failed
          {
            assert tasks[1..][i] == tasks[i + 1];
          }
        }
      }
    }
  }

  lemma {:induction false} TasksErrorsLength(tasks: seq<ValidationTask>)
    ensures |TasksErrors(tasks)| == FailedErrorCount(tasks)
    decreases |tasks|
  {
    if tasks != [] {
      TasksErrorsLength(tasks[1..]);
    }
  }

  lemma {:induction false} TasksChangesLength(tasks: seq<ValidationTask>)
    ensures |TasksChanges(tasks)| == ChangeCount(tasks)
    decreases |tasks|
  {
    if tasks != [] {
      TasksChangesLength(tasks[1..]);
    }
  }

  /* Errors of a concatenation of task lists are the concatenated errors. */
  lemma {:induction false} TasksErrorsAppend(a: seq<ValidationTask>, b: seq<ValidationTask>)
    ensures TasksErrors(a + b) == TasksErrors(a) + TasksErrors(b)
    decreases |a|
  {
    if a == [] {
      assert a + b == b;
    } else {
      assert (a + b)[1..] == a[1..] + b;
      TasksErrorsAppend(a[1..], b);
    }
  }

  /* Changes of a concatenation of task lists are the concatenated changes. */
  lemma {:induction false} TasksChangesAppend(a: seq<ValidationTask>, b: seq<ValidationTask>)
    ensures TasksChanges(a + b) == TasksChanges(a) + TasksChanges(b)
    decreases |a|
  {
    if a == [] {
      assert a + b == b;
    } else {
      assert (a + b)[1..] == a[1..] + b;
      TasksChangesAppend(a[1..], b);
    }
  }

  /**
   Together with `TasksErrorsAppend`, this pins `Errors()` down: a single
   task contributes its errors exactly when its own status is FAILED.
   */
  lemma TasksErrorsSingle(t: ValidationTask)
    ensures TasksErrors([t]) == if GetStatus(t) == Failed then TaskErrors(t) else []
  {
    assert [t][1..] == [];
  }

  /* Together with `TasksChangesAppend`: every task contributes its changes, whatever its status. */
  lemma TasksChangesSingle(t: ValidationTask)
    ensures TasksChanges([t]) == TaskChanges(t)
  {
    assert [t][1..] == [];
  }

  /* An error is reported exactly when some FAILED task reports it. */
  lemma {:induction false} ResultErrorsMembership(tasks: seq<ValidationTask>, e: ApolloError)
    ensures e in TasksErrors(tasks) <==>
              exists i :: 0 <= i < |tasks| && GetStatus(tasks[i]) == Failed && e in TaskErrors(tasks[i])
    decreases |tasks|
  {
    if tasks != [] {
      ResultErrorsMembership(tasks[1..], e);
      var head := if GetStatus(tasks[0]) == Failed then TaskErrors(tasks[0]) else [];
      assert TasksErrors(tasks) == head + TasksErrors(tasks[1..]);
      if e in TasksErrors(tasks[1..]) {
        var i :| 0 <= i < |tasks[1..]| && GetStatus(tasks[1..][i]) == Failed && e in TaskErrors(tasks[1..][i]);
        assert tasks[i + 1] == tasks[1..][i];
      }
      if exists i :: 0 <= i < |tasks| && GetStatus(tasks[i]) == Failed && e in TaskErrors(tasks[i]) {
        var i :| 0 <= i < |tasks| && GetStatus(tasks[i]) == Failed && e in TaskErrors(tasks[i]);
        if i > 0 {
          assert tasks[1..][i - 1] == tasks[i];
        }
      }
    }
  }

  /* A change is reported exactly when some task, of any status, reports it. */
  lemma {:induction false} ResultChangesMembership(tasks: seq<ValidationTask>, c: string)
    ensures c in TasksChanges(tasks) <==> exists i :: 0 <= i < |tasks| && c in TaskChanges(tasks[i])
    decreases |tasks|
  {
    if tasks != [] {
      ResultChangesMembership(tasks[1..], c);
      if c in TasksChanges(tasks[1..]) {
        var i :| 0 <= i < |tasks[1..]| && c in TaskChanges(tasks[1..][i]);
        assert tasks[i + 1] == tasks[1..][i];
      }
      if exists i :: 0 <= i < |tasks| && c in TaskChanges(tasks[i]) {
        var i :| 0 <= i < |tasks| && c in TaskChanges(tasks[i]);
        if i > 0 {
          assert tasks[1..][i - 1] == tasks[i];
        }
      }
    }
  }

  /**
   Changing task statuses never changes the change list: a passing check
   previews the same changes a failing one reports.
   */
  lemma {:induction false} ResultChangesIgnoreStatuses(a: seq<ValidationTask>, b: seq<ValidationTask>)
    requires |a| == |b|
    requires forall i :: 0 <= i < |a| ==> SameButStatus(a[i], b[i])
    ensures TasksChanges(a) == TasksChanges(b)
    decreases |a|
  {
    if a != [] {
      assert SameButStatus(a[0], b[0]);
      TaskOutputIgnoresStatus(a[0], b[0]);
      ResultChangesIgnoreStatuses(a[1..], b[1..]);
    }
  }

  /**
   When every task is a FAILED operations task, the error messages are
   exactly the change lines.
   */
  lemma {:induction false} FailedOperationsErrorsAreChanges(tasks: seq<ValidationTask>)
    requires forall i :: 0 <= i < |tasks| ==> tasks[i].Operations? && GetStatus(tasks[i]) == Failed
    ensures Messages(TasksErrors(tasks)) == TasksChanges(tasks)
    decreases |tasks|
  {
    if tasks != [] {
      FailedOperationsErrorsAreChanges(tasks[1..]);
      OperationsErrorsAreChanges(tasks[0].operations.changes);
      MessagesAppend(TaskErrors(tasks[0]), TasksErrors(tasks[1..]));
    }
  }

  lemma MessagesAppend(a: seq<ApolloError>, b: seq<ApolloError>)
    ensures Messages(a + b) == Messages(a) + Messages(b)
  {
  }

  /* ---------- worked examples ---------- */

  /* An operations task with one change reports it once as a change and once as an error. */
  lemma SingleChangeTask(status: Status, c: OperationsChange, checked: int)
    ensures var t := Operations(OperationsCheckTask(status, [c], checked));
            TaskChanges(t) == [ChangeLine(c)] && TaskErrors(t) == [ApolloError(ChangeLine(c), c.code)]
  {
    OperationsErrorsAreChanges([c]);
  }

  /* The change line of the breaking change used below. */
  lemma BreakingChangeLine()
    ensures ChangeLine(OperationsChange("BREAKING", "FIELD_REMOVED", "Field X removed")) == "[BREAKING]: Field X removed"
  {
    assert "[" + "BREAKING" == "[BREAKING";
    assert "[BREAKING" + "]: " == "[BREAKING]: ";
    assert "[BREAKING]: " + "Field X removed" == "[BREAKING]: Field X removed";
  }

  /* A breaking change reads the same as a change and as an error. */
  lemma OperationsExample()
    ensures var t := Operations(OperationsCheckTask(Failed, [OperationsChange("BREAKING", "FIELD_REMOVED", "Field X removed")], 1));
            TaskChanges(t) == ["[BREAKING]: Field X removed"]
            && TaskErrors(t) == [ApolloError("[BREAKING]: Field X removed", "FIELD_REMOVED")]
  {
    SingleChangeTask(Failed, OperationsChange("BREAKING", "FIELD_REMOVED", "Field X removed"), 1);
    BreakingChangeLine();
  }

  /* Two locations run together with nothing between them. */
  lemma CompositionLocationsExample(message: string, code: string, a: Location, b: Location)
    ensures CompositionMessage(CompositionError(message, code, [a, b]))
            == message + " at " + LocationText(a) + LocationText(b)
  {
    assert [a, b][1..] == [b];
    assert [a, b][1..][1..] == [];
    assert LocationsText([b]) == LocationText(b);
    assert LocationsText([a, b]) == LocationText(a) + LocationText(b);
  }

  /* A location renders its line and column in decimal. */
  lemma LocationTextExample()
    ensures LocationText(Location(1, 2)) == "line 1, column 2"
  {
    assert IntToDecimal(1) == "1";
    assert IntToDecimal(2) == "2";
  }

  /**
   A FAILED composition task with two errors next to a PASSED operations
   task with three changes, under a BLOCKED workflow: two errors, three
   changes, not valid.
   */
  lemma AggregationExample(e1: CompositionError, e2: CompositionError, c1: OperationsChange, c2: OperationsChange, c3: OperationsChange)
    ensures var vr := ValidationResult(Blocked, [
              Composition(CompositionCheckTask(Failed, "id", [e1, e2])),
              Operations(OperationsCheckTask(Passed, [c1, c2, c3], 0))]);
            |ResultErrors(vr)| == 2 && |ResultChanges(vr)| == 3 && !IsValid(vr)
  {
    var tasks := [
      Composition(CompositionCheckTask(Failed, "id", [e1, e2])),
      Operations(OperationsCheckTask(Passed, [c1, c2, c3], 0))];
    assert tasks[1..] == [tasks[1]];
    assert tasks[1..][1..] == [];
    assert FailedErrorCount(tasks[1..][1..]) == 0 && ChangeCount(tasks[1..][1..]) == 0;
    assert FailedErrorCount(tasks[1..]) == 0;
    assert |TaskErrors(tasks[0])| == 2;
    assert FailedErrorCount(tasks) == 2;
    assert |TaskChanges(tasks[1])| == 3;
    assert ChangeCount(tasks[1..]) == 3;
    assert ChangeCount(tasks) == 3;
  }
}

=== FILE: pkg_workflow.dfy ===
/**
 The subgraph check workflow client of `pkg/apollostudio`: submitting a
 check, polling the workflow until it reaches a terminal status, and the
 entry point that chains the two. The GraphQL round trips are inputs: the
 submit mutation's response, and the finite sequence of poll steps the loop
 would see, each carrying whether the context was already cancelled before
 that query and what the query returned.
 */
module PkgWorkflow {
  import opened Results
  import opened PkgErrors
  import opened PkgValidate

  /* ---------- submit ---------- */

  /* What the submit mutation produced: a transport failure, or the workflow id of a success (nil for every other outcome). */
  datatype SubmitResponse =
    | MutateFailed(cause: Error)
    | Submitted(workflowId: Option<string>)

  const CouldNotCreate := "could not create check workflow in apollo studio"

  /* `submitSubgraphCheck`: the workflow id, or why there is none. */
  function SubmitSubgraphCheck(resp: SubmitResponse): (r: Result<string, Error>)
    ensures r.Ok? <==> resp.Submitted? && resp.workflowId.Some?
    ensures r.Ok? ==> r.value == resp.workflowId.value
    ensures resp.MutateFailed? ==> r.Err? && r.error.Wrapped? && r.error.cause == resp.cause
                                   && ErrorText(r.error) == "failed to query apollo studio: " + ErrorText(resp.cause)
    ensures resp == Submitted(None) ==> r == Err(Message(CouldNotCreate))
  {
    match resp
    case MutateFailed(cause) => Err(Wrapped("failed to query apollo studio: ", cause))
    case Submitted(None) => Err(Message(CouldNotCreate))
    case Submitted(Some(id)) => Ok(id)
  }

  /* ---------- poll ---------- */

  /**
   One task record of the workflow query: its `__typename` and both inline
   fragments, only one of which the service fills in.
   */
  datatype RawTask = RawTask(
    typename: string,
    operationsCheckTask: OperationsCheckTask,
    compositionCheckTask: CompositionCheckTask)

  /* What one workflow query returned. */
  datatype WorkflowResponse =
    | QueryFailed(cause: Error)
    | Workflow(status: string, createdAt: string, tasks: seq<RawTask>)

  /* One turn of the loop: was the context cancelled before the query, and the query's answer. */
  datatype PollStep = PollStep(cancelled: bool, response: WorkflowResponse)

  /* Where a run stopped: it returned, or the given steps ran out while it still looped. */
  datatype Halt<T> = StillPolling | Returned(result: Result<T, Error>)

  /**
   A run of the polling loop: how it halted, how many queries it issued,
   how many one-second sleeps it took, and the warnings it printed.
   */
  datatype PollRun = PollRun(halt: Halt<ValidationResult>, queries: nat, sleeps: nat, warnings: seq<string>)

  /* The task variant a record stands for; unknown typenames stand for none. */
  function TaskOf(raw: RawTask): (r: Option<ValidationTask>)
    ensures r.Some? <==> raw.typename in {"OperationsCheckTask", "CompositionCheckTask"}
    ensures r.Some? && r.value.Operations? ==> r.value.operations == raw.operationsCheckTask
    ensures r.Some? && r.value.Composition? ==> r.value.composition == raw.compositionCheckTask
    ensures raw.typename == "OperationsCheckTask" ==> r == Some(Operations(raw.operationsCheckTask))
    ensures raw.typename == "CompositionCheckTask" ==> r == Some(Composition(raw.compositionCheckTask))
  {
    if raw.typename == "OperationsCheckTask" then Some(Operations(raw.operationsCheckTask))
    else if raw.typename == "CompositionCheckTask" then Some(Composition(raw.compositionCheckTask))
    else None
  }

  predicate Recognised(raw: RawTask) {
    TaskOf(raw).Some?
  }

  function RecognisedCount(raws: seq<RawTask>): nat
    decreases |raws|
  {
    if raws == [] then 0 else (if Recognised(raws[0]) then 1 else 0) + RecognisedCount(raws[1..])
  }

  /* The tasks of a terminal response: recognised records converted, the rest dropped, order kept. */
  function TasksOf(raws: seq<RawTask>): (r: seq<ValidationTask>)
    ensures |r| == RecognisedCount(raws)
    ensures forall t :: t in r ==> exists i :: 0 <= i < |raws| && TaskOf(raws[i]) == Some(t)
    decreases |raws|
  {
    if raws == [] then []
    else
      var rest := TasksOf(raws[1..]);
      assert forall t :: t in rest ==> exists i :: 0 <= i < |raws| && TaskOf(raws[i]) == Some(t) by {
        forall t | t in rest
          ensures exists i :: 0 <= i < |raws| && TaskOf(raws[i]) == Some(t)
        {
          var j :| 0 <= j < |raws[1..]| && TaskOf(raws[1..][j]) == Some(t);
          assert raws[j + 1] == raws[1..][j];
        }
      }
      match TaskOf(raws[0])
      case Some(t) => [t] + rest
      case None => rest
  }

  /* Converting a concatenation converts each part. */
  lemma {:induction false} TasksOfAppend(a: seq<RawTask>, b: seq<RawTask>)
    ensures TasksOf(a + b) == TasksOf(a) + TasksOf(b)
    decreases |a|
  {
    if a == [] {
      assert a + b == b;
    } else {
      assert (a + b)[0] == a[0];
      assert (a + b)[1..] == a[1..] + b;
      TasksOfAppend(a[1..], b);
    }
  }

  /* Records of recognised kinds are all kept, one for one. */
  lemma {:induction false} TasksOfAllRecognised(raws: seq<RawTask>)
    requires forall i :: 0 <= i < |raws| ==> Recognised(raws[i])
    ensures |TasksOf(raws)| == |raws|
    ensures forall i :: 0 <= i < |raws| ==> Some(TasksOf(raws)[i]) == TaskOf(raws[i])
    decreases |raws|
  {
    if raws != [] {
      assert Recognised(raws[0]);
      TasksOfAllRecognised(raws[1..]);
    }
  }

  /* Records of unknown kinds all vanish. */
  lemma {:induction false} TasksOfNoneRecognised(raws: seq<RawTask>)
    requires forall i :: 0 <= i < |raws| ==> !Recognised(raws[i])
    ensures TasksOf(raws) == []
    decreases |raws|
  {
    if raws != [] {
      assert !Recognised(raws[0]);
      TasksOfNoneRecognised(raws[1..]);
    }
  }

  /* The line printed for a status the client does not know. */
  function UnknownStateWarning(status: string): string {
    "WARNING: unknown workflow state " + status
  }

  /* A warning is the fixed 32-character lead followed by the status it reports. */
  lemma UnknownStateWarningNamesStatus(status: string)
    ensures var r := UnknownStateWarning(status);
            |r| == 32 + |status| && r[..32] == "WARNING: unknown workflow state " && r[32..] == status
  {
    var lead := "WARNING: unknown workflow state ";
    assert |lead| == 32;
    assert UnknownStateWarning(status) == lead + status;
  }

  /**
   `checkWorkflow`: before each query look at the context, then query; a
   failed query or a terminal status returns, PENDING loops silently and any
   other status loops after a warning, sleeping before the next turn.
   */
  function CheckWorkflow(ctxErr: Error, steps: seq<PollStep>): (r: PollRun)
    ensures r.queries <= |steps|
    ensures r.sleeps <= r.queries
    ensures r.halt.StillPolling? ==> r.queries == |steps| && r.sleeps == |steps|
    ensures r.halt.Returned? ==> r.queries - r.sleeps <= 1 && r.sleeps < |steps|
    ensures r.halt.Returned? && r.halt.result.Ok? ==> IsTerminal(r.halt.result.value.status)
    ensures |r.warnings| <= r.sleeps
    decreases |steps|
  {
    if steps == [] then PollRun(StillPolling, 0, 0, [])
    else
      var step := steps[0];
      if step.cancelled then PollRun(Returned(Err(ctxErr)), 0, 0, [])
      else match step.response
        case QueryFailed(cause) =>
          PollRun(Returned(Err(Wrapped("failed to query apollo studio ", cause))), 1, 0, [])
        case Workflow(status, _, raws) =>
          var s := Parse(status);
          if IsTerminal(s) then
            PollRun(Returned(Ok(ValidationResult(s, TasksOf(raws)))), 1, 0, [])
          else
            var rest := CheckWorkflow(ctxErr, steps[1..]);
            var warning := if s == Pending then [] else [UnknownStateWarning(status)];
            PollRun(rest.halt, rest.queries + 1, rest.sleeps + 1, warning + rest.warnings)
  }

  /* ---------- reference description of the loop ---------- */

  /* Whether a step ends the loop. */
  predicate Stops(step: PollStep) {
    step.cancelled || step.response.QueryFailed? || IsTerminal(Parse(step.response.status))
  }

  /* What the loop returns at a step that ends it. */
  function StopResult(ctxErr: Error, step: PollStep): Result<ValidationResult, Error>
    requires Stops(step)
  {
    if step.cancelled then Err(ctxErr)
    else if step.response.QueryFailed? then Err(Wrapped("failed to query apollo studio ", step.response.cause))
    else Ok(ValidationResult(Parse(step.response.status), TasksOf(step.response.tasks)))
  }

  /* The warnings a prefix of non-stopping steps prints. */
  function Warnings(steps: seq<PollStep>): seq<string>
    decreases |steps|
  {
    if steps == [] then []
    else
      var head :=
        if !steps[0].cancelled && steps[0].response.Workflow?
           && Parse(steps[0].response.status).Unknown?
        then [UnknownStateWarning(steps[0].response.status)] else [];
      head + Warnings(steps[1..])
  }

  /* One turn of the loop on a step that does not end it: a query, a sleep, perhaps a warning. */
  lemma CheckWorkflowStep(ctxErr: Error, steps: seq<PollStep>)
    requires steps != [] && !Stops(steps[0])
    ensures var rest := CheckWorkflow(ctxErr, steps[1..]);
            CheckWorkflow(ctxErr, steps)
            == PollRun(rest.halt, rest.queries + 1, rest.sleeps + 1, Warnings([steps[0]]) + rest.warnings)
  {
    assert [steps[0]][1..] == [];
  }

  /* A step that ends the loop decides the whole run on its own. */
  lemma CheckWorkflowStopStep(ctxErr: Error, steps: seq<PollStep>)
    requires steps != [] && Stops(steps[0])
    ensures CheckWorkflow(ctxErr, steps)
            == PollRun(Returned(StopResult(ctxErr, steps[0])), if steps[0].cancelled then 0 else 1, 0, [])
  {
  }

  /**
   The loop in terms of the first stopping step `k`: it returns what that
   step dictates, has slept once per earlier step, has queried once per
   earlier step plus once more unless it stopped on cancellation, and has
   warned about the unknown statuses before `k`.
   */
  lemma {:induction false} CheckWorkflowFirstStop(ctxErr: Error, steps: seq<PollStep>, k: nat)
    requires k < |steps| && Stops(steps[k])
    requires forall j :: 0 <= j < k ==> !Stops(steps[j])
    ensures CheckWorkflow(ctxErr, steps).halt == Returned(StopResult(ctxErr, steps[k]))
    ensures CheckWorkflow(ctxErr, steps).sleeps == k
    ensures CheckWorkflow(ctxErr, steps).queries == if steps[k].cancelled then k else k + 1
    ensures CheckWorkflow(ctxErr, steps).warnings == Warnings(steps[..k])
    decreases k
  {
    if k > 0 {
      assert !Stops(steps[0]);
      forall j | 0 <= j < k - 1
        ensures !Stops(steps[1..][j])
      {
        assert steps[1..][j] == steps[j + 1];
      }
      CheckWorkflowFirstStop(ctxErr, steps[1..], k - 1);
      CheckWorkflowStep(ctxErr, steps);
      assert steps[..k][0] == steps[0];
      assert steps[1..][..k - 1] == steps[..k][1..];
    }
  }

  /* With no stopping step the loop is still polling, having queried and slept once per step. */
  lemma {:induction false} CheckWorkflowNeverStops(ctxErr: Error, steps: seq<PollStep>)
    requires forall j :: 0 <= j < |steps| ==> !Stops(steps[j])
    ensures CheckWorkflow(ctxErr, steps).halt == StillPolling
    ensures CheckWorkflow(ctxErr, steps).queries == |steps|
    ensures CheckWorkflow(ctxErr, steps).warnings == Warnings(steps)
    decreases |steps|
  {
    if steps != [] {
      assert !Stops(steps[0]);
      forall j | 0 <= j < |steps| - 1
        ensures !Stops(steps[1..][j])
      {
        assert steps[1..][j] == steps[j + 1];
      }
      CheckWorkflowNeverStops(ctxErr, steps[1..]);
    }
  }

  /* Once the loop has returned, later responses are never looked at. */
  lemma {:induction false} CheckWorkflowIgnoresLaterSteps(ctxErr: Error, steps: seq<PollStep>, later: seq<PollStep>)
    requires CheckWorkflow(ctxErr, steps).halt.Returned?
    ensures CheckWorkflow(ctxErr, steps + later) == CheckWorkflow(ctxErr, steps)
    decreases |steps|
  {
    assert steps != [];
    assert (steps + later)[0] == steps[0];
    if Stops(steps[0]) {
      CheckWorkflowStopStep(ctxErr, steps);
      CheckWorkflowStopStep(ctxErr, steps + later);
    } else {
      assert (steps + later)[1..] == steps[1..] + later;
      CheckWorkflowIgnoresLaterSteps(ctxErr, steps[1..], later);
    }
  }

  /* A result the loop returns is valid exactly when the final response said "PASSED". */
  lemma CheckWorkflowValidity(ctxErr: Error, steps: seq<PollStep>, k: nat)
    requires k < |steps| && Stops(steps[k]) && !steps[k].cancelled && steps[k].response.Workflow?
    requires forall j :: 0 <= j < k ==> !Stops(steps[j])
    ensures CheckWorkflow(ctxErr, steps).halt.Returned?
    ensures CheckWorkflow(ctxErr, steps).halt.result.Ok?
    ensures IsValid(CheckWorkflow(ctxErr, steps).halt.result.value) <==> steps[k].response.status == "PASSED"
    ensures CheckWorkflow(ctxErr, steps).halt.result.value.tasks == TasksOf(steps[k].response.tasks)
  {
    CheckWorkflowFirstStop(ctxErr, steps, k);
  }

  /* ---------- entry point ---------- */

  /* `ValidateSubGraph`: submit, and poll the new workflow only when the submit produced an id. */
  function ValidateSubGraph(submit: SubmitResponse, ctxErr: Error, steps: seq<PollStep>): (r: PollRun)
    ensures SubmitSubgraphCheck(submit).Err? ==>
              r.halt == Returned(Err(SubmitSubgraphCheck(submit).error)) && r.queries == 0 && r.sleeps == 0
              && r.warnings == []
    ensures SubmitSubgraphCheck(submit).Ok? ==> r == CheckWorkflow(ctxErr, steps)
  {
    match SubmitSubgraphCheck(submit)
    case Err(e) => PollRun(Returned(Err(e)), 0, 0, [])
    case Ok(_) => CheckWorkflow(ctxErr, steps)
  }
}

=== FILE: results.dfy ===
/** Optional values and success-or-error results, the two shapes Go's
    `(value, error)` and pointer-or-nil returns take in this model. */
module Results {

  datatype Option<+T> = None | Some(value: T)

  datatype Result<+T, +E> = Ok(value: T) | Err(error: E)
}

=== FILE: studio_check.dfy ===
/**
 The earlier check-and-publish client of the `apollostudio` package
 directory. Its check loop differs from the one in `pkg/apollostudio`: it
 knows only FAILED (an error) and PASSED (success), keeps polling on every
 other status including BLOCKED, sleeps after every successful query, and
 runs under a background context, so nothing cancels it.
 */
module StudioCheck {
  import opened Text
  import opened Results
  import opened PkgErrors
  import PkgValidate
  import PkgWorkflow
  import StudioClient

  datatype ValidateOptions = ValidateOptions(
    schemaId: string,
    schemaVariant: string,
    apiKey: string,
    subGraphName: string,
    subGraphSchema: string)

  /* The graph ref put in the check input: `"%s@%s"` of schema id and variant. */
  function SubmittedGraphRef(opts: ValidateOptions): (r: string)
    ensures |r| == |opts.schemaId| + 1 + |opts.schemaVariant|
    ensures r[..|opts.schemaId|] == opts.schemaId && r[|opts.schemaId|] == '@'
    ensures r[|opts.schemaId| + 1..] == opts.schemaVariant
  {
    opts.schemaId + "@" + opts.schemaVariant
  }

  /* For `@`-free ids and variants the ref reads back as the two it was made from. */
  lemma SubmittedGraphRefReadsBack(opts: ValidateOptions)
    requires '@' !in opts.schemaId && '@' !in opts.schemaVariant
    ensures StudioClient.ValidateGraphRef(SubmittedGraphRef(opts)).None?
    ensures StudioClient.GetGraphId(SubmittedGraphRef(opts)) == opts.schemaId
    ensures StudioClient.GetVariant(SubmittedGraphRef(opts)) == opts.schemaVariant
  {
    StudioClient.GraphRefParts(opts.schemaId, opts.schemaVariant);
  }

  /* ---------- the workflow query of this revision ---------- */

  datatype OperationsCheckTask = OperationsCheckTask(
    status: string,
    changes: seq<PkgValidate.OperationsChange>,
    numberOfCheckedOperations: int)

  datatype Task = Task(typename: string, operationsCheckTask: OperationsCheckTask)

  datatype WorkflowResponse =
    | QueryFailed(cause: Error)
    | Workflow(status: string, createdAt: string, tasks: seq<Task>)

  /* ---------- `%v` of the workflow value, used in the FAILED error ---------- */

  /* `%v` of a slice: the elements separated by single spaces, in brackets. */
  function SliceText(items: seq<string>): string {
    "[" + Join(items, ' ') + "]"
  }

  function ChangeText(c: PkgValidate.OperationsChange): string {
    "{" + c.severity + " " + c.code + " " + c.description + "}"
  }

  function ChangeTexts(changes: seq<PkgValidate.OperationsChange>): (r: seq<string>)
    ensures |r| == |changes|
    decreases |changes|
  {
    if changes == [] then [] else [ChangeText(changes[0])] + ChangeTexts(changes[1..])
  }

  function TaskText(t: Task): string {
    var o := t.operationsCheckTask;
    "{" + t.typename + " {" + o.status + " {" + SliceText(ChangeTexts(o.changes)) + " "
      + IntToDecimal(o.numberOfCheckedOperations) + "}}}"
  }

  function TaskTexts(tasks: seq<Task>): (r: seq<string>)
    ensures |r| == |tasks|
    decreases |tasks|
  {
    if tasks == [] then [] else [TaskText(tasks[0])] + TaskTexts(tasks[1..])
  }

  /* `%v` of the check workflow struct: status, creation time, tasks. */
  function WorkflowText(status: string, createdAt: string, tasks: seq<Task>): string {
    "{" + status + " " + createdAt + " " + SliceText(TaskTexts(tasks)) + "}"
  }

  /* ---------- the check loop ---------- */

  /* A run of the loop: how it halted, queries issued, one-second sleeps taken. */
  datatype CheckRun = CheckRun(halt: PkgWorkflow.Halt<bool>, queries: nat, sleeps: nat)

  const QueryFailedPrefix := "failed to query apollo studio "

  /**
   The polling loop of `ValidateSubGraph`: query, give up on a query error,
   sleep, then stop on FAILED or PASSED and otherwise query again.
   */
  function PollWorkflow(steps: seq<WorkflowResponse>): (r: CheckRun)
    ensures r.sleeps <= r.queries <= |steps|
    ensures r.halt.StillPolling? ==> r.queries == |steps| && r.sleeps == |steps|
    ensures r.halt.Returned? && r.halt.result.Ok? ==> r.halt.result.value && r.sleeps == r.queries
    ensures r.halt.Returned? ==> 1 <= r.queries
    decreases |steps|
  {
    if steps == [] then CheckRun(PkgWorkflow.StillPolling, 0, 0)
    else match steps[0]
      case QueryFailed(cause) =>
        CheckRun(PkgWorkflow.Returned(Err(Message(QueryFailedPrefix + ErrorText(cause)))), 1, 0)
      case Workflow(status, createdAt, tasks) =>
        if status == "FAILED" then
          var e := Message("Subgraph check failed " + WorkflowText(status, createdAt, tasks));
          CheckRun(PkgWorkflow.Returned(Err(e)), 1, 1)
        else if status == "PASSED" then CheckRun(PkgWorkflow.Returned(Ok(true)), 1, 1)
        else
          var rest := PollWorkflow(steps[1..]);
          CheckRun(rest.halt, rest.queries + 1, rest.sleeps + 1)
  }

  /* Whether a response ends this loop. */
  predicate Stops(resp: WorkflowResponse) {
    resp.QueryFailed? || resp.status == "FAILED" || resp.status == "PASSED"
  }

  /**
   The loop in terms of the first response `k` that ends it: FAILED is an
   error, PASSED is success, a query error is an error; it has queried
   `k + 1` times and slept after every successful query, the last included.
   */
  lemma {:induction false} PollWorkflowFirstStop(steps: seq<WorkflowResponse>, k: nat)
    requires k < |steps| && Stops(steps[k])
    requires forall j :: 0 <= j < k ==> !Stops(steps[j])
    ensures PollWorkflow(steps).halt.Returned?
    ensures PollWorkflow(steps).queries == k + 1
    ensures PollWorkflow(steps).sleeps == if steps[k].QueryFailed? then k else k + 1
    ensures PollWorkflow(steps).halt.result.Ok? <==> steps[k].Workflow? && steps[k].status == "PASSED"
    ensures steps[k].QueryFailed? ==>
              PollWorkflow(steps).halt.result == Err(Message(QueryFailedPrefix + ErrorText(steps[k].cause)))
    decreases k
  {
    if k > 0 {
      assert !Stops(steps[0]);
      forall j | 0 <= j < k - 1
        ensures !Stops(steps[1..][j])
      {
        assert steps[1..][j] == steps[j + 1];
      }
      PollWorkflowFirstStop(steps[1..], k - 1);
    }
  }

  /* Without FAILED, PASSED or a query error the loop never ends, whatever else (BLOCKED too) it sees. */
  lemma {:induction false} PollWorkflowNeverStops(steps: seq<WorkflowResponse>)
    requires forall j :: 0 <= j < |steps| ==> !Stops(steps[j])
    ensures PollWorkflow(steps).halt.StillPolling?
    decreases |steps|
  {
    if steps != [] {
      assert !Stops(steps[0]);
      forall j | 0 <= j < |steps| - 1
        ensures !Stops(steps[1..][j])
      {
        assert steps[1..][j] == steps[j + 1];
      }
      PollWorkflowNeverStops(steps[1..]);
    }
  }

  /* A BLOCKED response only costs one more query and one more sleep. */
  lemma BlockedKeepsPolling(createdAt: string, tasks: seq<Task>, rest: seq<WorkflowResponse>)
    ensures var r := PollWorkflow([Workflow("BLOCKED", createdAt, tasks)] + rest);
            r.halt == PollWorkflow(rest).halt
            && r.queries == PollWorkflow(rest).queries + 1
            && r.sleeps == PollWorkflow(rest).sleeps + 1
  {
    assert ([Workflow("BLOCKED", createdAt, tasks)] + rest)[1..] == rest;
  }

  /**
   `ValidateSubGraph`: a failed submit or a missing workflow id returns an
   error without polling; otherwise the loop runs.
   */
  function ValidateSubGraph(submit: PkgWorkflow.SubmitResponse, steps: seq<WorkflowResponse>): (r: CheckRun)
    ensures submit.MutateFailed? ==>
              r == CheckRun(PkgWorkflow.Returned(Err(Message(QueryFailedPrefix + ErrorText(submit.cause)))), 0, 0)
    ensures submit == PkgWorkflow.Submitted(None) ==>
              r == CheckRun(PkgWorkflow.Returned(Err(Message(PkgWorkflow.CouldNotCreate))), 0, 0)
    ensures submit.Submitted? && submit.workflowId.Some? ==> r == PollWorkflow(steps)
    ensures r.halt.Returned? && r.halt.result.Ok? ==> r.halt.result.value && r.queries >= 1
  {
    match submit
    case MutateFailed(cause) => CheckRun(PkgWorkflow.Returned(Err(Message(QueryFailedPrefix + ErrorText(cause)))), 0, 0)
    case Submitted(None) => CheckRun(PkgWorkflow.Returned(Err(Message(PkgWorkflow.CouldNotCreate))), 0, 0)
    case Submitted(Some(_)) => PollWorkflow(steps)
  }

  /* ---------- publish ---------- */

  datatype PublishError = PublishError(message: string, code: string)

  /* What the publish mutation produced: a transport failure, or the errors it listed. */
  datatype PublishResponse = PublishFailed(cause: Error) | Published(errors: seq<PublishError>)

  function PublishErrorTexts(errors: seq<PublishError>): (r: seq<string>)
    ensures |r| == |errors|
    decreases |errors|
  {
    if errors == [] then [] else ["{" + errors[0].message + " " + errors[0].code + "}"] + PublishErrorTexts(errors[1..])
  }

  /* `SubmitSubGraph`: success exactly when the mutation went through and listed no errors. */
  function SubmitSubGraph(resp: PublishResponse): (r: Result<bool, Error>)
    ensures r.Ok? <==> resp.Published? && |resp.errors| == 0
    ensures r.Ok? ==> r.value
    ensures resp.PublishFailed? ==> r == Err(Message(QueryFailedPrefix + ErrorText(resp.cause)))
    ensures resp.Published? && r.Err? ==>
              r == Err(Message("failed to submit schema " + SliceText(PublishErrorTexts(resp.errors))))
  {
    match resp
    case PublishFailed(cause) => Err(Message(QueryFailedPrefix + ErrorText(cause)))
    case Published(errors) =>
      if |errors| > 0 then Err(Message("failed to submit schema " + SliceText(PublishErrorTexts(errors))))
      else Ok(true)
  }
}

=== FILE: studio_client.dfy ===
/**
 The client constructor and graph-reference helpers of the `apollostudio`
 package directory: a graph ref names a graph and its variant as
 `graphID@variant`, and `NewClient` folds functional options over default
 settings before checking the ref.
 */
module StudioClient {
  import opened Text
  import opened Results
  import opened PkgErrors

  type GraphRef = string

  const DefaultUrl := "https://graphql.api.apollographql.com/api/graphql"

  /* `ValidateGraphRef`: nil (None) when the ref is usable, otherwise the reason. */
  function ValidateGraphRef(graphRef: string): (r: Option<Error>)
    ensures r.None? <==> '@' in graphRef
    ensures graphRef == "" ==> r == Some(Message("graph ref is required"))
    ensures graphRef != "" && '@' !in graphRef ==> r == Some(Message("missing variant in graph ref"))
  {
    CountPositiveIffPresent(graphRef, '@');
    if graphRef == "" then Some(Message("graph ref is required"))
    else if |Split(graphRef, '@')| < 2 then Some(Message("missing variant in graph ref"))
    else None
  }

  /* `getGraphId`: the text before the first `@`, or the whole ref when it has none. */
  function GetGraphId(g: GraphRef): (r: string)
    ensures '@' !in r
    ensures '@' !in g ==> r == g
    ensures '@' in g ==> |r| < |g| && g[..|r|] == r && g[|r|] == '@'
  {
    SplitFirst(g, '@');
    Split(g, '@')[0]
  }

  /**
   `getVariant`: the text between the first and the second `@` (or the end).
   A ref without `@` makes the source index out of range.
   */
  function GetVariant(g: GraphRef): (r: string)
    requires '@' in g
    ensures '@' !in r
    ensures var rest := g[|GetGraphId(g)| + 1..];
            |r| <= |rest| && rest[..|r|] == r && (|r| == |rest| || rest[|r|] == '@')
  {
    CountPositiveIffPresent(g, '@');
    SplitRest(g, '@');
    SplitFirst(g[|GetGraphId(g)| + 1..], '@');
    Split(g, '@')[1]
  }

  /* With exactly one `@`, graph id and variant put back together give the ref. */
  lemma GraphRefRoundTrip(g: GraphRef)
    requires Count(g, '@') == 1
    ensures '@' in g && g == GetGraphId(g) + "@" + GetVariant(g)
  {
    CountPositiveIffPresent(g, '@');
    var parts := Split(g, '@');
    assert |parts| == 2;
    assert parts[1..] == [parts[1]];
  }

  /* Building a ref from an `@`-free graph id and variant and taking it apart gives them back. */
  lemma GraphRefParts(graphId: string, variant: string)
    requires '@' !in graphId && '@' !in variant
    ensures ValidateGraphRef(graphId + "@" + variant).None?
    ensures GetGraphId(graphId + "@" + variant) == graphId
    ensures GetVariant(graphId + "@" + variant) == variant
  {
    var g := graphId + "@" + variant;
    assert g == Join([graphId, variant], '@');
    SplitJoin([graphId, variant], '@');
  }

  /* A third segment and beyond are ignored. */
  lemma ExtraSegmentsIgnored()
    ensures ValidateGraphRef("a@b@c").None?
    ensures GetGraphId("a@b@c") == "a" && GetVariant("a@b@c") == "b"
  {
    assert "a@b@c" == Join(["a", "b", "c"], '@');
    SplitJoin(["a", "b", "c"], '@');
  }

  /* The valid case of the package's own tests. */
  lemma FooAtBarTestCase()
    ensures ValidateGraphRef("foo@bar").None?
    ensures GetGraphId("foo@bar") == "foo"
    ensures GetVariant("foo@bar") == "bar"
  {
    assert "foo" + "@" + "bar" == "foo@bar";
    GraphRefParts("foo", "bar");
  }

  /* The invalid case of the package's own tests. */
  lemma FooBarTestCase()
    ensures ValidateGraphRef("foobar") == Some(Message("missing variant in graph ref"))
  {
    var s := "foobar";
    assert s == ['f', 'o', 'o', 'b', 'a', 'r'];
    assert '@' !in s;
  }

  /* ---------- options ---------- */

  /* The HTTP client and request modifier are opaque values here. */
  datatype HttpClient = DefaultHttpClient | CustomHttpClient(id: nat)
  datatype RequestModifier = ApiKeyModifier(apiKey: string) | CustomModifier(id: nat)

  datatype Settings = Settings(httpClient: HttpClient, debug: bool, url: string, requestModifier: RequestModifier)

  datatype ClientOpt =
    | WithHttpClient(httpClient: HttpClient)
    | WithDebug(debug: bool)
    | WithUrl(url: string)
    | WithRequestModifier(modifier: RequestModifier)

  /* The settings `NewClient` starts from: the default HTTP client, debug off, the public URL, the API key. */
  function DefaultSettings(apiKey: string): (r: Settings)
    ensures r.httpClient == DefaultHttpClient && !r.debug && r.url == DefaultUrl
    ensures r.requestModifier == ApiKeyModifier(apiKey)
  {
    Settings(DefaultHttpClient, false, DefaultUrl, ApiKeyModifier(apiKey))
  }

  /* One option overwrites exactly the setting it names. */
  function ApplyOption(s: Settings, o: ClientOpt): (r: Settings)
    ensures r.url == if o.WithUrl? then o.url else s.url
    ensures r.debug == if o.WithDebug? then o.debug else s.debug
    ensures r.httpClient == if o.WithHttpClient? then o.httpClient else s.httpClient
    ensures r.requestModifier == if o.WithRequestModifier? then o.modifier else s.requestModifier
  {
    match o
    case WithHttpClient(c) => s.(httpClient := c)
    case WithDebug(d) => s.(debug := d)
    case WithUrl(u) => s.(url := u)
    case WithRequestModifier(m) => s.(requestModifier := m)
  }

  /* Options applied left to right; a setting no option names keeps its value. */
  function ApplyOptions(s: Settings, opts: seq<ClientOpt>): (r: Settings)
    ensures (forall i :: 0 <= i < |opts| ==> !opts[i].WithUrl?) ==> r.url == s.url
    ensures (forall i :: 0 <= i < |opts| ==> !opts[i].WithDebug?) ==> r.debug == s.debug
    ensures (forall i :: 0 <= i < |opts| ==> !opts[i].WithHttpClient?) ==> r.httpClient == s.httpClient
    ensures (forall i :: 0 <= i < |opts| ==> !opts[i].WithRequestModifier?) ==> r.requestModifier == s.requestModifier
    decreases |opts|
  {
    if opts == [] then s
    else
      assert forall i :: 0 <= i < |opts[1..]| ==> opts[1..][i] == opts[i + 1];
      ApplyOptions(ApplyOption(s, opts[0]), opts[1..])
  }

  /* Applying two lists of options applies the first, then the second. */
  lemma {:induction false} ApplyOptionsAppend(s: Settings, a: seq<ClientOpt>, b: seq<ClientOpt>)
    ensures ApplyOptions(s, a + b) == ApplyOptions(ApplyOptions(s, a), b)
    decreases |a|
  {
    if a == [] {
      assert a + b == b;
    } else {
      assert (a + b)[1..] == a[1..] + b;
      ApplyOptionsAppend(ApplyOption(s, a[0]), a[1..], b);
    }
  }

  /* The last `WithUrl` wins. */
  lemma LastUrlWins(s: Settings, before: seq<ClientOpt>, url: string, after: seq<ClientOpt>)
    requires forall i :: 0 <= i < |after| ==> !after[i].WithUrl?
    ensures ApplyOptions(s, before + [WithUrl(url)] + after).url == url
  {
    ApplyOptionsAppend(s, before + [WithUrl(url)], after);
    ApplyOptionsAppend(s, before, [WithUrl(url)]);
  }

  /* The last `WithDebug` wins. */
  lemma LastDebugWins(s: Settings, before: seq<ClientOpt>, debug: bool, after: seq<ClientOpt>)
    requires forall i :: 0 <= i < |after| ==> !after[i].WithDebug?
    ensures ApplyOptions(s, before + [WithDebug(debug)] + after).debug == debug
  {
    ApplyOptionsAppend(s, before + [WithDebug(debug)], after);
    ApplyOptionsAppend(s, before, [WithDebug(debug)]);
  }

  /* ---------- constructor ---------- */

  /* The GraphQL client is represented by the settings it was built from. */
  datatype Client = Client(settings: Settings, graphRef: GraphRef)

  /* `NewClient`: the settings after all options, and the ref unchanged, if the ref is usable. */
  function NewClient(apiKey: string, graphRef: string, opts: seq<ClientOpt>): (r: Result<Client, Error>)
    ensures r.Ok? <==> '@' in graphRef
    ensures r.Err? ==> Some(r.error) == ValidateGraphRef(graphRef)
    ensures r.Ok? ==> r.value.graphRef == graphRef
    ensures r.Ok? ==> r.value.settings == ApplyOptions(DefaultSettings(apiKey), opts)
    ensures r.Ok? && (forall i :: 0 <= i < |opts| ==> !opts[i].WithUrl?) ==> r.value.settings.url == DefaultUrl
    ensures r.Ok? && (forall i :: 0 <= i < |opts| ==> !opts[i].WithDebug?) ==> !r.value.settings.debug
  {
    var settings := ApplyOptions(DefaultSettings(apiKey), opts);
    match ValidateGraphRef(graphRef)
    case Some(e) => Err(e)
    case None => Ok(Client(settings, graphRef))
  }
}

=== FILE: studio_get.dfy ===
/**
 The latest schema build of a graph variant, as the `apollostudio` package
 directory reads it: which subgraphs went into it, and whether the build
 failed.
 */
module StudioGet {
  import opened Text
  import opened Results
  import opened PkgErrors

  datatype SubGraphInput = SubGraphInput(name: string, hash: string)

  /* The failure messages of the build result and the subgraphs of its composition input. */
  datatype LatestSchemaBuild = LatestSchemaBuild(errorMessages: seq<ApolloError>, subGraphs: seq<SubGraphInput>)

  /* `ContainsGraph`: whether some input subgraph carries the name. */
  method ContainsGraph(b: LatestSchemaBuild, graphName: string) returns (found: bool)
    ensures found <==> exists i :: 0 <= i < |b.subGraphs| && b.subGraphs[i].name == graphName
  {
    var i := 0;
    while i < |b.subGraphs|
      invariant 0 <= i <= |b.subGraphs|
      invariant forall j :: 0 <= j < i ==> b.subGraphs[j].name != graphName
    {
      if b.subGraphs[i].name == graphName {
        return true;
      }
      i := i + 1;
    }
    return false;
  }

  /* `Errors()`: the build's failure messages. */
  function BuildErrors(b: LatestSchemaBuild): (r: seq<ApolloError>)
    ensures r == b.errorMessages
  {
    b.errorMessages
  }

  /* What the latest-build query produced. */
  datatype BuildQuery = BuildQueryFailed(cause: Error) | BuildFound(build: LatestSchemaBuild)

  /* The summary message of a failed build. */
  function BuildFailureMessage(count: nat): string {
    "latest schema build contains " + NatToDecimal(count) + " errors"
  }

  /**
   The error handling of `GetLatestSchemaBuild`: a failed query is wrapped,
   a build with failure messages becomes an `OperationError` carrying
   exactly those messages, and any other build is returned.
   */
  function GetLatestSchemaBuild(resp: BuildQuery): (r: Result<LatestSchemaBuild, Error>)
    ensures r.Ok? <==> resp.BuildFound? && |BuildErrors(resp.build)| == 0
    ensures r.Ok? ==> r.value == resp.build
    ensures resp.BuildQueryFailed? ==>
              r.Err? && r.error.Wrapped? && r.error.cause == resp.cause
              && ErrorText(r.error) == "failed to query apollo studio " + ErrorText(resp.cause)
    ensures resp.BuildFound? && r.Err? ==>
              r.error.Operation? && r.error.op.apolloErrors == BuildErrors(resp.build)
              && r.error.op.message == BuildFailureMessage(|BuildErrors(resp.build)|)
  {
    match resp
    case BuildQueryFailed(cause) => Err(Wrapped("failed to query apollo studio ", cause))
    case BuildFound(build) =>
      var errors := build.errorMessages;
      if |errors| > 0 then Err(Operation(OperationError(BuildFailureMessage(|errors|), errors)))
      else Ok(build)
  }

  /* The summary message and the `OperationError` suffix run together. */
  lemma FailureTextRegroup(n: string)
    ensures ("latest schema build contains " + n + " errors") + " (" + n + " apollo errors)"
            == "latest schema build contains " + n + " errors (" + n + " apollo errors)"
  {
    assert " errors" + " (" == " errors (";
  }

  /* The text of a failed build's error states the number of messages twice. */
  lemma FailedBuildErrorText(b: LatestSchemaBuild)
    requires |BuildErrors(b)| > 0
    ensures GetLatestSchemaBuild(BuildFound(b)).Err?
    ensures var n := NatToDecimal(|BuildErrors(b)|);
            ErrorText(GetLatestSchemaBuild(BuildFound(b)).error)
            == "latest schema build contains " + n + " errors (" + n + " apollo errors)"
  {
    var op := OperationError(BuildFailureMessage(|b.errorMessages|), b.errorMessages);
    var n := NatToDecimal(|b.errorMessages|);
    assert GetLatestSchemaBuild(BuildFound(b)) == Err(Operation(op));
    assert ErrorText(Operation(op)) == OperationErrorText(op);
    OperationErrorTextPieces(op);
    FailureTextRegroup(n);
  }
}

=== FILE: text.dfy ===
/**
 String helpers shared by the whole model: Go's `strings.Split` with a
 one-character separator (and its inverse `Join`), and the decimal rendering
 that `fmt`'s `%d` verb produces, with the parser that undoes it.
 */
module Text {

  /* Number of occurrences of `c` in `s`. */
  function Count(s: string, c: char): nat
    decreases |s|
  {
    if s == [] then 0 else (if s[0] == c then 1 else 0) + Count(s[1..], c)
  }

  lemma {:induction false} CountPositiveIffPresent(s: string, c: char)
    ensures Count(s, c) > 0 <==> c in s
    decreases |s|
  {
    if s != [] {
      CountPositiveIffPresent(s[1..], c);
      assert c in s <==> s[0] == c || c in s[1..] by {
        assert s == [s[0]] + s[1..];
      }
    }
  }

  /* Go's `strings.Join(parts, string(sep))`. */
  function Join(parts: seq<string>, sep: char): string
    decreases |parts|
  {
    if |parts| == 0 then ""
    else if |parts| == 1 then parts[0]
    else parts[0] + [sep] + Join(parts[1..], sep)
  }

  ghost predicate NoSeparator(parts: seq<string>, sep: char) {
    forall i :: 0 <= i < |parts| ==> sep !in parts[i]
  }

  /**
   Go's `strings.Split(s, string(sep))`: the pieces between separators, one
   more piece than there are separators, so the empty string splits into
   `[""]` and empty pieces are kept.
   */
  function Split(s: string, sep: char): (parts: seq<string>)
    ensures |parts| == Count(s, sep) + 1
    ensures NoSeparator(parts, sep)
    ensures Join(parts, sep) == s
    decreases |s|
  {
    if s == [] then [""]
    else
      var rest := Split(s[1..], sep);
      if s[0] == sep then
        assert ([""] + rest)[1..] == rest;
        [""] + rest
      else
        assert ([[s[0]] + rest[0]] + rest[1..])[1..] == rest[1..];
        assert s == [s[0]] + s[1..];
        [[s[0]] + rest[0]] + rest[1..]
  }

  /* A joined string has a separator at the end of its first piece. */
  lemma JoinHead(parts: seq<string>, sep: char)
    requires |parts| >= 2
    ensures |parts[0]| < |Join(parts, sep)|
    ensures Join(parts, sep)[..|parts[0]|] == parts[0]
    ensures Join(parts, sep)[|parts[0]|] == sep
    ensures Join(parts, sep)[|parts[0]| + 1..] == Join(parts[1..], sep)
  {
  }

  /* The middle piece of a three-way concatenation. */
  lemma SliceMiddle(a: string, b: string, c: string)
    ensures (a + b + c)[|a|..|a| + |b|] == b
  {
  }

  /* The last piece of a concatenation. */
  lemma SliceEnd(a: string, b: string)
    ensures (a + b)[|a|..] == b
  {
  }

  /* A joined string starts with its first two pieces, followed by a separator or nothing. */
  lemma JoinFirstTwo(parts: seq<string>, sep: char)
    requires |parts| >= 2
    ensures var used := parts[0] + [sep] + parts[1];
            var s := Join(parts, sep);
            |used| <= |s| && s[..|used|] == used && (|used| == |s| || s[|used|] == sep)
  {
    JoinHead(parts, sep);
    if |parts| > 2 {
      JoinHead(parts[1..], sep);
    }
  }

  /* A separator-free string is a single piece. */
  lemma {:induction false} SplitNoSeparator(a: string, sep: char)
    requires sep !in a
    ensures Split(a, sep) == [a]
    decreases |a|
  {
    if a != [] {
      SplitNoSeparator(a[1..], sep);
      assert a == [a[0]] + a[1..];
    }
  }

  /* Splitting stops the first piece at the first separator. */
  lemma {:induction false} SplitAtSeparator(a: string, b: string, sep: char)
    requires sep !in a
    ensures Split(a + [sep] + b, sep) == [a] + Split(b, sep)
    decreases |a|
  {
    var s := a + [sep] + b;
    if a == [] {
      assert s[1..] == b;
    } else {
      assert s[1..] == a[1..] + [sep] + b;
      SplitAtSeparator(a[1..], b, sep);
      assert a == [a[0]] + a[1..];
    }
  }

  /* Splitting undoes joining separator-free pieces. */
  lemma {:induction false} SplitJoin(parts: seq<string>, sep: char)
    requires |parts| >= 1 && NoSeparator(parts, sep)
    ensures Split(Join(parts, sep), sep) == parts
    decreases |parts|
  {
    if |parts| == 1 {
      SplitNoSeparator(parts[0], sep);
    } else {
      SplitJoin(parts[1..], sep);
      SplitAtSeparator(parts[0], Join(parts[1..], sep), sep);
      assert parts == [parts[0]] + parts[1..];
    }
  }

  /* `Join` is injective on separator-free pieces. */
  lemma JoinInjective(p: seq<string>, q: seq<string>, sep: char)
    requires |p| >= 1 && |q| >= 1
    requires NoSeparator(p, sep) && NoSeparator(q, sep)
    requires Join(p, sep) == Join(q, sep)
    ensures p == q
  {
    SplitJoin(p, sep);
    SplitJoin(q, sep);
  }

  /* The first piece of a split: everything before the first separator. */
  lemma {:induction false} SplitFirst(s: string, sep: char)
    ensures sep !in Split(s, sep)[0]
    ensures Split(s, sep)[0] == s <==> sep !in s
    ensures sep in s ==> |Split(s, sep)[0]| < |s|
                         && s[..|Split(s, sep)[0]|] == Split(s, sep)[0]
                         && s[|Split(s, sep)[0]|] == sep
  {
    var parts := Split(s, sep);
    CountPositiveIffPresent(s, sep);
    if |parts| >= 2 {
      JoinHead(parts, sep);
    }
  }

  /* Splitting after the first separator yields the remaining pieces. */
  lemma SplitRest(s: string, sep: char)
    requires sep in s
    ensures |Split(s, sep)[0]| < |s|
    ensures Split(s[|Split(s, sep)[0]| + 1..], sep) == Split(s, sep)[1..]
  {
    var parts := Split(s, sep);
    CountPositiveIffPresent(s, sep);
    JoinHead(parts, sep);
    SplitJoin(parts[1..], sep);
  }

  /* Position of the first `c` in `s`, or `|s|` when there is none. */
  function IndexOf(s: string, c: char): (k: nat)
    ensures k <= |s|
    decreases |s|
  {
    if s == [] then 0 else if s[0] == c then 0 else 1 + IndexOf(s[1..], c)
  }

  /* A `c` preceded by none is the first one. */
  lemma {:induction false} IndexOfFirst(s: string, c: char, k: nat)
    requires k < |s| && s[k] == c && c !in s[..k]
    ensures IndexOf(s, c) == k
    decreases k
  {
    if k > 0 {
      assert s[0] in s[..k];
      assert s[1..][..k - 1] == s[..k][1..];
      IndexOfFirst(s[1..], c, k - 1);
    }
  }

  /* ---------- decimal rendering (`%d`) ---------- */

  predicate IsDigit(c: char) {
    '0' <= c <= '9'
  }

  predicate AllDigits(s: string) {
    forall i :: 0 <= i < |s| ==> IsDigit(s[i])
  }

  function DigitChar(d: nat): (c: char)
    requires d < 10
    ensures IsDigit(c)
  {
    (48 + d) as char
  }

  function DigitValue(c: char): nat
    requires IsDigit(c)
  {
    c as nat - 48
  }

  /* Decimal digits of `n`, most significant first, without leading zeros. */
  function NatToDecimal(n: nat): (r: string)
    ensures |r| >= 1
    ensures AllDigits(r)
    ensures r[0] == '0' ==> n == 0 && r == "0"
    decreases n
  {
    if n < 10 then [DigitChar(n)] else NatToDecimal(n / 10) + [DigitChar(n % 10)]
  }

  /* Go's `%d` of a signed integer. */
  function IntToDecimal(n: int): (r: string)
    ensures |r| >= 1
    ensures n < 0 <==> r[0] == '-'
    ensures n >= 0 ==> AllDigits(r)
    ensures n < 0 ==> AllDigits(r[1..])
  {
    if n < 0 then "-" + NatToDecimal(-n) else NatToDecimal(n)
  }

  /* The value a string of decimal digits denotes. */
  function DecimalValue(s: string): nat
    requires AllDigits(s)
    decreases |s|
  {
    if s == [] then 0 else DecimalValue(s[..|s| - 1]) * 10 + DigitValue(s[|s| - 1])
  }

  /* The value a `%d` rendering denotes. */
  function SignedDecimalValue(s: string): int
    requires |s| >= 1
    requires if s[0] == '-' then AllDigits(s[1..]) else AllDigits(s)
  {
    if s[0] == '-' then -(DecimalValue(s[1..]) as int) else DecimalValue(s)
  }

  lemma {:induction false} NatToDecimalRoundTrip(n: nat)
    ensures DecimalValue(NatToDecimal(n)) == n
    decreases n
  {
    var r := NatToDecimal(n);
    if n >= 10 {
      NatToDecimalRoundTrip(n / 10);
      assert r[..|r| - 1] == NatToDecimal(n / 10);
    }
  }

  lemma IntToDecimalRoundTrip(n: int)
    ensures SignedDecimalValue(IntToDecimal(n)) == n
  {
    if n < 0 {
      NatToDecimalRoundTrip(-n);
      assert IntToDecimal(n)[1..] == NatToDecimal(-n);
    } else {
      NatToDecimalRoundTrip(n);
    }
  }

  lemma NatToDecimalInjective(m: nat, n: nat)
    requires NatToDecimal(m) == NatToDecimal(n)
    ensures m == n
  {
    NatToDecimalRoundTrip(m);
    NatToDecimalRoundTrip(n);
  }

  /* The longest prefix of `s` made of decimal digits. */
  function DigitPrefix(s: string): (r: string)
    ensures AllDigits(r)
    ensures |r| <= |s| && s[..|r|] == r
    ensures |r| == |s| || !IsDigit(s[|r|])
    decreases |s|
  {
    if s == [] || !IsDigit(s[0]) then ""
    else
      var rest := DigitPrefix(s[1..]);
      assert s[..|rest| + 1] == [s[0]] + rest;
      [s[0]] + rest
  }

  /* Reading the digits back from a rendering followed by a non-digit. */
  lemma {:induction false} DigitPrefixOfDecimal(d: string, t: string)
    requires AllDigits(d)
    requires t == [] || !IsDigit(t[0])
    ensures DigitPrefix(d + t) == d
    decreases |d|
  {
    if d != [] {
      assert (d + t)[1..] == d[1..] + t;
      DigitPrefixOfDecimal(d[1..], t);
      assert d == [d[0]] + d[1..];
    } else {
      assert d + t == t;
    }
  }
}
